=== FILE: README.md ===
# Layered mountain terrain renderer: a Dafny model

The program paints a 2460 x 1300 picture. It first fills a sky-coloured background and
stamps a "wheel in the sky": its centre pixel plus midpoint circles of radius 1 up to
`WHEEL_RADIUS - 1`. It then draws four mountain layers from back to front. Each layer
is a ridge polyline made by iterative midpoint displacement. The polyline is drawn as
Bresenham segments between consecutive ridge points. Every pixel of those segments is
filled down to the bottom row by a second, vertical Bresenham line. Every pixel write
is gated by the bounds check `in_bounds` and overwrites the pixel.

The model has one module per part of `src/main.rs`:

- `Geometry` (geometry.dfy) has the `Point` datatype (u32 coordinates as `nat`), the
  bounds check `InBounds`, and three sequence helpers:
  - `Reverse` reverses a sequence;
  - `FlatMap` concatenates per-element results;
  - `Chain` joins segments between consecutive points.
- `Bresenham` (bresenham.dfy) rasterizes lines.
  - `Line(a, b)` is a functional reference. It is built from a normalised *frame*
    (steep swap, left-to-right order) and a closed-form error accumulator
    (`Accumulate`).
  - `GetLineBres` is the source's loop, proved to compute `Line`.
  - The lemmas cover:
    - the exact length and both endpoints;
    - reversal symmetry;
    - 8-connected steps that move monotonically toward `b`;
    - vertical and horizontal lines.
- `MidpointCircle` (circle.dfy) rasterizes circles.
  - `Circle(c, r)` reflects every offset of the arc `Arc(r, (r, 0))` into eight points.
    `Next` takes exactly one of the two updates, as the Rust `else if` does.
  - `GetCirclePoints` is the source's loop. Its invariant is
    `err == x*x + y*y + 2*y - r*r`.
  - The lemmas cover:
    - the length `8 * (r + 1)`;
    - the groups of eight;
    - symmetry;
    - the bounding square;
    - the fact that every offset stays within one step of the true circle.
- `Ridge` (ridge.dfy) models midpoint displacement.
  - Randomness is an oracle `draw: nat -> int`, indexed by the position in the random
    stream.
  - `Displace` is the functional reference and `MidpointDisplacement` the loop.
  - The lemmas cover:
    - the structure of a pass;
    - the endpoints;
    - the length `2^(iterations - 1) + 1`;
    - x-order preservation.
- `Raster` (raster.dfy) models the canvas.
  - A canvas is a `map<Point, Color>` over exactly its width x height grid.
  - `Paint` is one gated write and `PaintAll` a sequence of them.
  - `Composite` stacks strokes, which are batches of same-coloured writes.
  - `Occlusion` proves that compositing is stacking: a pixel shows the colour of the
    last stroke that covers it.
- `Compositor` (compositor.dfy) models the painting loops of `main`.
  - `Render` is proved to produce `Picture(s, draw)`. That is the sky, then the wheel
    stroke, then one stroke per layer. Each layer stroke holds the columns under its
    Bresenham outline.
  - The lemmas describe which colour each pixel ends up with.
  - `ProgramScene` fixes the program's integer constants: canvas size, colours, wheel,
    the four layers' columns and the iteration count. `ProgramWheelOnCanvas` proves
    that they meet the model's requirements and that no wheel write is lost to the
    bounds check. `ProgramRidgesOnCanvas` proves that every ridge point lies in a
    canvas column.

The random offsets are an integer oracle. For an integer midpoint row `y` and any float
sample `f`, the program stores `(y as f32 + f) as u32` when that rounded sum is
positive, and `0` otherwise. Either way the stored row is `max(0, y + m)` for some
integer `m`: the truncated sum minus `y` in the first case, `-y` in the second. Since
the oracle is arbitrary, every run of the program is one of the model's runs.

Two behaviours of the program are worth knowing:

- A circle of radius 0 is eight copies of the centre (`CircleRadiusZero`). `main`
  only asks for radii from 1 up.
- The vertical fill starts at `y + 1`, an addition, so nothing underflows. A ridge
  pixel on or below the bottom row makes the Bresenham line run upward. The only
  in-bounds pixel it then paints is the bottom-row pixel of that column
  (`ColumnRows`).

## Model

| member | source | states |
|---|---|---|
| Geometry.Pixels | src/main.rs:108-110 | a point is one of the canvas pixels exactly when `in_bounds` accepts it |
| Geometry.InBounds | src/main.rs:108-110 | a point passes the bounds check when its column is below the width and its row below the height |
| Bresenham.Normalize | src/main.rs:114-128 | the frame runs left to right with dependent delta at most the run; the run length is the larger coordinate delta; its first and last plotted points are a and b, exchanged exactly when the endpoints were swapped |
| Bresenham.Plot | src/main.rs:140-144 | a (driving, dependent) pair as a canvas point: exchanged back when the line is steep, as is |
| Bresenham.Steep | src/main.rs:118 | y changes strictly more than x between the endpoints |
| Bresenham.Swapped | src/main.rs:123-128 | the driving coordinate of a exceeds that of b, so the endpoints are exchanged and the output reversed |
| Bresenham.Setup | src/main.rs:114-128 | the steep swap and the ordering swap produce the normalised frame and set `reversed` exactly when the endpoints were exchanged |
| Bresenham.Accumulate | src/main.rs:129-149 | the error term and the number of dependent steps after n iterations: start at dx/2, subtract dy, and when negative step once and add dx |
| Bresenham.AccumulateInvariant | src/main.rs:129-150 | after n loop steps the error term equals dx/2 - n*dy + (steps taken)*dx and stays in [0, dx) |
| Bresenham.ReachesEnd | src/main.rs:139-150 | after dx iterations the dependent coordinate has moved by exactly dy, so the walk ends on the far endpoint |
| Bresenham.StepUnit | src/main.rs:145-149 | each iteration moves the dependent coordinate by 0 or 1, and by 0 when dy is 0 |
| Bresenham.StepsMonotone | src/main.rs:145-149 | the dependent coordinate never moves backward |
| Bresenham.StepsBounded | src/main.rs:145-149 | within the run the dependent coordinate never overshoots dy |
| Bresenham.FlatSteps | src/main.rs:145-149 | with dy = 0 the dependent coordinate never moves |
| Bresenham.AtEnds | src/main.rs:139-144 | the first and last emitted points are the frame's two endpoints |
| Bresenham.TraceEnds | src/main.rs:139-150 | the walked sequence starts and ends on the frame's endpoints |
| Bresenham.WalkStep | src/main.rs:139-150 | unfolds `At` and `Accumulate` by one iteration for the loop proof: the point pushed at step n and the error update of lines 145-149 |
| Bresenham.Dependent | src/main.rs:132-147 | the dependent coordinate after j steps from y1, moving by ystep = +1 when y1 < y2 and -1 otherwise |
| Bresenham.At | src/main.rs:139-149 | the k-th pushed point: driving coordinate x1 + k, dependent coordinate after the steps the error accumulator has taken |
| Bresenham.Trace | src/main.rs:139-150 | the points the loop pushes, one per x from x1 to x2 |
| Bresenham.Walk | src/main.rs:129-150 | the loop's output is the frame's walked sequence |
| Bresenham.Line | src/main.rs:112-159 | the line from a to b is the walk of the normalised frame, reversed when the endpoints were exchanged |
| Bresenham.ReverseInPlace | src/main.rs:152-157 | swapping i with len-1-i for i < len/2 reverses the sequence |
| Bresenham.GetLineBres | src/main.rs:112-159 | the output is the reference line, has max(abs dx, abs dy) + 1 points, starts at a and ends at b |
| Bresenham.LineShape | src/main.rs:118-150 | the line has max(abs dx, abs dy) + 1 points, starts at a, ends at b, and is [a] when a == b |
| Bresenham.LineReversal | src/main.rs:123-157 | the line from b to a is the reverse of the line from a to b, for all a and b |
| Bresenham.TraceStep | src/main.rs:139-150 | consecutive walked points move by exactly one along the major axis, at most one along the other, each coordinate toward the far endpoint |
| Bresenham.TraceKingStep | src/main.rs:139-157 | the same step property for the frame of any a, b, oriented from the endpoint the walk starts on |
| Bresenham.LineStep | src/main.rs:139-157 | consecutive points of the line from a to b are an 8-connected step toward b |
| Bresenham.LineConnected | src/main.rs:139-157 | every pair of consecutive line points is an 8-connected step toward b |
| Bresenham.FlatTrace | src/main.rs:139-150 | with equal dependent coordinates the walk stays on one row of its frame |
| Bresenham.Run | src/main.rs:95 | the rows of one column from u to v, downward or upward, as the vertical fill line yields them |
| Bresenham.VerticalLine | src/main.rs:112-159 | a line between two points of column x is exactly that column's rows from u to v in order, as the under-ridge fill uses it |
| Bresenham.Row | src/main.rs:112-159 | the columns of one row from u to v, rightward or leftward, as a horizontal line yields them |
| Bresenham.HorizontalLine | src/main.rs:112-159 | a line between two points of row y is exactly that row's columns from u to v in order, in either direction |
| MidpointCircle.Err | src/main.rs:199-216 | the closed form x² + y² + 2y - r² of the `err` accumulator for offset (x, y) |
| MidpointCircle.ErrMoves | src/main.rs:211-216 | raising y adds 2(y+1)+1 to the error term and lowering x subtracts 2(x-1)+1 |
| MidpointCircle.ErrNext | src/main.rs:211-217 | the error term after one step follows the source's update for whichever branch was taken |
| MidpointCircle.Next | src/main.rs:211-217 | one step: up a row when the error term is not positive, otherwise one column in, never both |
| MidpointCircle.Arc | src/main.rs:201-218 | the arc from (x, y) has x - y + 1 offsets, all in the triangle y <= y' <= x' <= x, with x' - y' dropping by one per step |
| MidpointCircle.Advance | src/main.rs:211-217 | exactly one branch runs: the offset moves to the next arc offset, the error term stays x² + y² + 2y - r², and x - y drops by exactly one |
| MidpointCircle.Ring | src/main.rs:201-209 | the eight pushes of every visited offset, group after group |
| MidpointCircle.Circle | src/main.rs:196-218 | the output of `get_circle_points`: the ring of the arc from (r, 0) |
| MidpointCircle.RingSnoc | src/main.rs:202-209 | unfolds `Ring` by one offset for the loop proof: one more offset appends its eight pushes |
| MidpointCircle.RingLength | src/main.rs:202-209 | a ring emits eight points per offset |
| MidpointCircle.Octants | src/main.rs:202-209 | the eight reflections of one offset in the order the program pushes them |
| MidpointCircle.RingGroups | src/main.rs:201-209 | block k of eight consecutive ring points is the eight reflections of the k-th offset |
| MidpointCircle.CircleGroups | src/main.rs:201-209 | the circle has 8(r+1) points; block k is the eight reflections of one offset with 0 <= y <= x <= r |
| MidpointCircle.GetCirclePoints | src/main.rs:196-246 | the loop's output is the reference circle; it has 8(r+1) points for r >= 0 and none for r < 0 |
| MidpointCircle.OnTrackNext | src/main.rs:211-217 | the error term stays within its band from one step to the next, so the offset lies near the circle |
| MidpointCircle.ArcNear | src/main.rs:201-218 | every offset the loop visits lies in the annulus r² - 2(x+y) - 1 < x² + y² <= r² + 1 |
| MidpointCircle.ArcEnd | src/main.rs:201-218 | the loop's last offset is on the diagonal x == y |
| MidpointCircle.FirstOctant | src/main.rs:197-218 | the arc starts at (r, 0), ends on the diagonal, and every offset is near the circle |
| MidpointCircle.RingMember | src/main.rs:202-209 | every ring point is a reflection of some visited offset |
| MidpointCircle.RingHas | src/main.rs:202-209 | every reflection of a visited offset is on the ring |
| MidpointCircle.OctantsByOffset | src/main.rs:202-209 | a point is among an offset's eight pushes exactly when its distances from the centre are the offset's coordinates, in either order |
| MidpointCircle.OctantsClosed | src/main.rs:202-209 | the eight pushes of an offset are closed under reflection about the centre's axes and diagonals |
| MidpointCircle.CircleSymmetric | src/main.rs:196-218 | the circle is closed under the eight reflections about its centre |
| MidpointCircle.CircleInSquare | src/main.rs:196-218 | every circle point lies within r of the centre in both coordinates |
| MidpointCircle.ArcFromDiagonal | src/main.rs:201-218 | starting on the diagonal the loop runs once |
| MidpointCircle.CircleRadiusZero | src/main.rs:196-218 | a circle of radius 0 is the centre eight times |
| Ridge.Displaced | src/main.rs:176-184 | the midpoint's x lies between its neighbours' x; its y is mid.y + offset when positive and 0 otherwise |
| Ridge.Subdivide | src/main.rs:170-189 | one pass: each point followed by the displaced midpoint of it and its successor, then b |
| Ridge.Passes | src/main.rs:167-192 | p passes of the outer loop, pass k drawing one offset per adjacent pair after the draws of the passes before it |
| Ridge.Displace | src/main.rs:166-192 | iterations - 1 passes starting from [a, b], each pass drawing one offset per adjacent pair |
| Ridge.SubdivideShape | src/main.rs:170-189 | a pass has 2n-1 points, keeps point i at position 2i, and puts the displaced truncating midpoint of points i and i+1, using draw number drawn+i, at position 2i+1 |
| Ridge.SubdivideOrdered | src/main.rs:170-189 | a pass preserves non-decreasing x order |
| Ridge.PassesLength | src/main.rs:167-192 | after p passes over n points there are 2^p (n-1) + 1 points |
| Ridge.PassesEnds | src/main.rs:166-192 | passes keep the first point and end on b |
| Ridge.PassesOrdered | src/main.rs:167-192 | passes preserve non-decreasing x order |
| Ridge.DisplaceShape | src/main.rs:162-194 | the ridge starts at a and ends at b; it has 2^(iterations-1) + 1 points, or is exactly [a, b] for iterations <= 1; when a.x <= b.x it is x-ordered within [a.x, b.x] |
| Ridge.Pass | src/main.rs:168-189 | one pass of the inner loop computes the reference pass and consumes one draw per adjacent pair |
| Ridge.MidpointDisplacement | src/main.rs:162-194 | the loop computes the reference ridge, with its length and its endpoints a and b |
| Raster.Blank | src/main.rs:51-53 | the background fill gives a full canvas whose every pixel has the sky colour |
| Raster.Paint | src/main.rs:65-68 | a gated write keeps the canvas size; by definition an in-bounds point takes the colour and an out-of-bounds point changes nothing (what a pixel ends up with is stated by PaintAllAt) |
| Raster.PaintAll | src/main.rs:63-69 | the gated writes of a point sequence in order keep the canvas size |
| Raster.PaintAllValid | src/main.rs:63-69 | gated writes never add or remove a canvas pixel |
| Raster.PaintAllAt | src/main.rs:63-69 | after a gated write loop a pixel has the colour exactly when it is one of the points, and keeps its old colour otherwise |
| Raster.PaintAllAppend | src/main.rs:87-101 | writing s then t is writing s + t |
| Raster.Composite | src/main.rs:51-103 | the strokes painted in order, each overwriting the ones before; keeps the canvas size |
| Raster.CompositeValid | src/main.rs:51-103 | stacking strokes keeps the canvas's pixel set |
| Raster.Occlusion | src/main.rs:51-103 | after stacking, every pixel shows the colour of the last stroke covering it, or its earlier colour |
| Raster.LastCoverWins | src/main.rs:84-103 | a pixel covered by stroke i and no later stroke shows stroke i's colour |
| Raster.UncoveredKeeps | src/main.rs:51-103 | a pixel no stroke covers keeps its colour |
| Raster.PaintPoints | src/main.rs:63-69 | the gated write loop is the sequence of gated writes |
| Compositor.ColumnRows | src/main.rs:95-100 | the column fill of ridge pixel p reaches q exactly when q is in p's column from row min(p.y, h-1) to the bottom row |
| Compositor.ColumnsCover | src/main.rs:90-101 | a pixel is filled by a layer's outline exactly when it lies under some outline pixel |
| Compositor.Column | src/main.rs:91-100 | one ridge pixel, then the vertical line from the row below it to the bottom row |
| Compositor.Outline | src/main.rs:87-90 | the Bresenham segments between consecutive ridge points, joined in order |
| Compositor.LayerFill | src/main.rs:87-101 | every write of one layer: the column of each outline pixel, in order |
| Compositor.Ridges | src/main.rs:84-86 | one ridge per layer, layer i displaced with its own draws |
| Compositor.Columns | src/main.rs:90-101 | the columns of every pixel of a segment, in order |
| Compositor.Fills | src/main.rs:84-102 | each layer's writes, one fill per ridge |
| Compositor.Strokes | src/main.rs:51-103 | the wheel's writes, then each layer's fill with its colour, back to front; one more stroke than layers |
| Compositor.Painted | src/main.rs:51-103 | the sky canvas with the wheel and layer strokes painted over it in order |
| Compositor.Picture | src/main.rs:51-103 | the finished canvas: the sky with the strokes painted over it in order |
| Compositor.LineJoins | src/main.rs:87-90 | every Bresenham segment runs from its first argument to its second |
| Compositor.OutlineEnds | src/main.rs:87-90 | the joined segments start at the ridge's first point and end at its last |
| Compositor.OutlineThroughRidge | src/main.rs:87-90 | every ridge point is drawn by the joined segments |
| Compositor.StampCentre | src/main.rs:56-60 | the centre write is the first wheel write |
| Compositor.StampRing | src/main.rs:61-69 | adding ring i extends the wheel writes from radius bound i to i+1 |
| Compositor.StampWheel | src/main.rs:55-70 | the wheel loop performs the centre write and then the writes of rings 1 .. radius-1, in order |
| Compositor.WheelPoints | src/main.rs:55-70 | the wheel writes: the centre, then the rings of radius 1 .. n - 1 in order |
| Compositor.FillColumn | src/main.rs:91-100 | one ridge pixel's writes are the pixel then its vertical run from y+1 to the bottom row |
| Compositor.VerticalRun | src/main.rs:95 | the vertical Bresenham call yields column x from row u to row v |
| Compositor.FillColumns | src/main.rs:90-101 | a segment's writes are the columns of its pixels in order |
| Compositor.PaintLayer | src/main.rs:87-102 | a layer's writes are the columns of its joined segments |
| Compositor.LayerRidge | src/main.rs:85-86 | layer i's ridge is the displacement of its end points with its own draws |
| Compositor.DrawLayer | src/main.rs:84-102 | drawing layer i performs exactly its stroke's writes |
| Compositor.PaintLayers | src/main.rs:84-103 | the layer loop stacks the layer strokes after the wheel, back to front |
| Compositor.SceneStrokes | src/main.rs:51-103 | unfolds `Strokes` and `Fills` for the coverage lemmas: stroke 0 is the wheel and stroke i+1 is layer i's fill |
| Compositor.Render | src/main.rs:48-103 | the painting loops produce the reference picture, a full canvas of the scene's size |
| Compositor.Stacked | src/main.rs:51-103 | each pixel of the picture shows the top stroke covering it, or the sky |
| Compositor.LayerShows | src/main.rs:84-103 | a pixel under layer i and no later layer shows layer i's colour |
| Compositor.WheelShows | src/main.rs:55-103 | a wheel pixel under no layer shows the wheel colour |
| Compositor.SkyShows | src/main.rs:51-103 | a pixel neither the wheel nor a layer covers shows the sky colour |
| Compositor.WheelInSquare | src/main.rs:55-70 | every wheel write lies within radius-1 of the centre in both coordinates |
| Compositor.WheelOnCanvas | src/main.rs:61-69 | when that square fits the canvas no wheel write is discarded by the bounds check |
| Compositor.ProgramWheelOnCanvas | src/main.rs:13-70 | with the program's constants (centre (246, 130), radius bound 76) no ring subtraction underflows and every wheel write lands on the canvas |
| Compositor.ProgramScene | src/main.rs:13-44 | the program's scene has four layers, each drawn left to right between columns on the canvas |
| Compositor.RidgeColumns | src/main.rs:85-90 | a layer drawn left to right keeps every ridge point between its end columns |
| Compositor.ProgramRidgesOnCanvas | src/main.rs:13-90 | whatever the draws, every ridge point of the program's layers lies in a canvas column |

## Left out

- Image buffer allocation, PNG encoding and writing `terrain.png` (src/main.rs:48, 104-106) are foreign-library I/O. The canvas is an immutable map instead.
- The random generator and `Range::new(...).ind_sample` (src/main.rs:165, 178-179) are an injected oracle of integer offsets. The `Range::new` panic for a zero displacement is not modelled.
- MidpointDisplacement: the offsets are arbitrary integers. The float sample lies in [-vert_displ, vert_displ) (src/main.rs:178), and that bound decays by 2^-roughness after each pass (src/main.rs:190). Both are float arithmetic and neither is modelled; after truncation and the clamp at row 0 the integer offset can exceed vert_displ in size anyway.
- ProgramScene: four quantities are computed in `f32` from the canvas height and stay parameters. They are the first layer's rows `top` and `topRight` (src/main.rs:29-30) and the gaps `gap2` and `gap3` (src/main.rs:31-33, 36). The displacement magnitudes (src/main.rs:24-27) and the roughness values (src/main.rs:39-42) are not modelled, as for MidpointDisplacement.
- Machine integers are `nat`/`int`. These u32 and i32 operations would wrap only for coordinates near 2^31 or 2^32, so their wrap-around is not modelled:
  - the `as i32` casts in the line rasterizer (src/main.rs:114-117, 141-143);
  - the `point.y + 1` at src/main.rs:95;
  - the sums `point_a.x + point_b.x` and `point_a.y + point_b.y` at src/main.rs:176;
  - the sums `center.x + x as u32` and `center.y + x as u32` (and the same with `y`) at src/main.rs:202-203 and 208-209.
- GetCirclePoints: requires radius <= center.x and radius <= center.y. Otherwise the u32 subtraction at src/main.rs:204-208 underflows, which panics in a debug build and wraps in a release build. Neither outcome is modelled. The program's own wheel meets the requirement (`ProgramWheelOnCanvas`).
- The `.expect("point oob")` lookups (src/main.rs:88-89, 171-172) never fail on the indices used, so they are plain sequence indexing.
- The commented-out C circle at src/main.rs:219-244 is not modelled. Its second `if` can run both updates in one iteration, when the first leaves `err > 0`; the model follows the Rust `else if`.

=== FILE: bresenham.dfy ===
/** Bresenham's line rasterizer, `get_line_bres`. The reference definition `Line`
    describes the output in closed form (one point per unit of the driving axis, the
    dependent coordinate given by the error accumulator); the method `GetLineBres`
    runs the program's loop and is proved to produce exactly `Line(a, b)`. */
module Bresenham {
  import opened Geometry

  /** The endpoints after the steep swap and the left-to-right ordering: the loop walks
      the driving axis from x1 to x2 while the dependent coordinate goes from y1 to y2.
      `steep` says x and y were exchanged. */
  datatype Frame = Frame(steep: bool, x1: nat, y1: nat, x2: nat, y2: nat)

  /** A frame the loop can walk: left to right, dependent delta no larger than the run. */
  predicate Ordered(f: Frame)
  {
    f.x1 <= f.x2 && Abs(f.y2 - f.y1) <= f.x2 - f.x1
  }

  /** Maps a (driving, dependent) pair back to canvas coordinates. */
  function Plot(steep: bool, u: nat, v: nat): Point
  {
    if steep then Point(v, u) else Point(u, v)
  }

  /** The line is steep: y changes more than x, so y drives the loop. */
  predicate Steep(a: Point, b: Point)
  {
    Abs(b.y - a.y) > Abs(b.x - a.x)
  }

  /** The endpoints are swapped so that the driving coordinate increases; the output is
      then reversed at the end. */
  predicate Swapped(a: Point, b: Point)
  {
    if Steep(a, b) then a.y > b.y else a.x > b.x
  }

  /** The frame get_line_bres sets up before its loop. */
  function Normalize(a: Point, b: Point): (f: Frame)
    ensures Ordered(f)
    ensures f.steep == Steep(a, b)
    ensures f.steep ==> Abs(f.y2 - f.y1) < f.x2 - f.x1
    ensures f.x2 - f.x1 == Max(Abs(b.x - a.x), Abs(b.y - a.y))
    ensures Plot(f.steep, f.x1, f.y1) == if Swapped(a, b) then b else a
    ensures Plot(f.steep, f.x2, f.y2) == if Swapped(a, b) then a else b
  {
    var steep := Steep(a, b);
    var x1: nat := if steep then a.y else a.x;
    var y1: nat := if steep then a.x else a.y;
    var x2: nat := if steep then b.y else b.x;
    var y2: nat := if steep then b.x else b.y;
    if x1 > x2 then Frame(steep, x2, y2, x1, y1)
    else Frame(steep, x1, y1, x2, y2)
  }

  /** The error term and the number of dependent-axis steps taken after n iterations of
      the loop, for a run of dx and a dependent delta of dy: each iteration subtracts dy,
      and when the error drops below zero takes a step and adds dx back. */
  function Accumulate(dx: nat, dy: nat, n: nat): (int, nat)
  {
    if n == 0 then (dx / 2, 0)
    else
      var prev := Accumulate(dx, dy, n - 1);
      var e := prev.0 - dy;
      if e < 0 then (e + dx, prev.1 + 1) else (e, prev.1)
  }

  /** The error always equals its starting value dx / 2, minus dy per iteration, plus dx
      per step taken, and stays in [0, dx): this is what makes the walk land exactly on
      the far endpoint. */
  lemma {:induction false} AccumulateInvariant(dx: nat, dy: nat, n: nat)
    requires dy <= dx
    ensures var s := Accumulate(dx, dy, n); s.0 == dx / 2 - n * dy + s.1 * dx
    ensures dx > 0 ==> 0 <= Accumulate(dx, dy, n).0 < dx
    ensures dx == 0 ==> Accumulate(dx, dy, n) == (0, 0)
  {
    if n > 0 {
      AccumulateInvariant(dx, dy, n - 1);
      var prev := Accumulate(dx, dy, n - 1);
      ErrorStep(dx, dy, n, prev.0, prev.1);
    }
  }

  /** The arithmetic of one iteration: subtracting dy moves the count of iterations on
      by one, adding dx back moves the count of steps on by one. */
  lemma ErrorStep(dx: int, dy: int, n: int, e: int, t: int)
    requires e == dx / 2 - (n - 1) * dy + t * dx
    ensures e - dy == dx / 2 - n * dy + t * dx
    ensures e - dy + dx == dx / 2 - n * dy + (t + 1) * dx
  {
    assert (n - 1) * dy == n * dy - dy;
    assert (t + 1) * dx == t * dx + dx;
  }

  /** Dependent-axis steps taken after n iterations. */
  function Steps(dx: nat, dy: nat, n: nat): nat
    requires dy <= dx
  {
    Accumulate(dx, dy, n).1
  }

  /** A nonzero multiple of a positive d is at least d away from zero. */
  lemma MultipleBound(d: int, t: int)
    requires d > 0
    ensures t >= 1 ==> d * t >= d
    ensures t <= -1 ==> d * t <= -d
  {
    if t >= 1 {
      assert d * t == d * (t - 1) + d;
    } else if t <= -1 {
      assert d * t == d * (t + 1) - d;
    }
  }

  /** An error term in [0, dx) after dx iterations pins the step count to dy. */
  lemma StepsPinned(dx: int, dy: int, e: int, t: int)
    requires dx > 0 && e == dx / 2 - dx * dy + t * dx && 0 <= e < dx
    ensures t == dy
  {
    assert dx * (t - dy) == e - dx / 2 by {
      assert t * dx - dx * dy == dx * (t - dy);
    }
    MultipleBound(dx, t - dy);
  }

  /** After dx iterations the dependent coordinate has advanced by exactly dy. */
  lemma ReachesEnd(dx: nat, dy: nat)
    requires dy <= dx
    ensures Steps(dx, dy, dx) == dy
  {
    var s := Accumulate(dx, dy, dx);
    AccumulateInvariant(dx, dy, dx);
    if dx > 0 {
      StepsPinned(dx, dy, s.0, s.1);
    }
  }

  /** Each iteration takes at most one dependent-axis step; none when dy is zero. */
  lemma StepUnit(dx: nat, dy: nat, n: nat)
    requires dy <= dx
    ensures Steps(dx, dy, n) <= Steps(dx, dy, n + 1) <= Steps(dx, dy, n) + 1
    ensures dy == 0 ==> Steps(dx, dy, n + 1) == Steps(dx, dy, n)
  {
    AccumulateInvariant(dx, dy, n);
  }

  lemma {:induction false} StepsMonotone(dx: nat, dy: nat, m: nat, n: nat)
    requires dy <= dx && m <= n
    ensures Steps(dx, dy, m) <= Steps(dx, dy, n)
  {
    if m < n {
      StepsMonotone(dx, dy, m, n - 1);
      StepUnit(dx, dy, n - 1);
    }
  }

  lemma StepsBounded(dx: nat, dy: nat, n: nat)
    requires dy <= dx && n <= dx
    ensures Steps(dx, dy, n) <= dy
  {
    StepsMonotone(dx, dy, n, dx);
    ReachesEnd(dx, dy);
  }

  lemma {:induction false} FlatSteps(dx: nat, n: nat)
    ensures Steps(dx, 0, n) == 0
  {
    if n > 0 {
      FlatSteps(dx, n - 1);
      StepUnit(dx, 0, n - 1);
    }
  }

  /** The dependent coordinate after j steps from y1 toward y2 (ystep is +1 when
      y1 < y2 and -1 otherwise). */
  function Dependent(f: Frame, j: nat): int
  {
    if f.y1 < f.y2 then f.y1 + j else f.y1 - j
  }

  /** The k-th point the loop emits. */
  function At(f: Frame, k: nat): Point
    requires Ordered(f) && k <= f.x2 - f.x1
  {
    var dx := f.x2 - f.x1;
    var dy := Abs(f.y2 - f.y1);
    StepsBounded(dx, dy, k);
    Plot(f.steep, f.x1 + k, Dependent(f, Steps(dx, dy, k)))
  }

  /** The loop's output in emission order. */
  function Trace(f: Frame): seq<Point>
    requires Ordered(f)
  {
    seq(f.x2 - f.x1 + 1, k requires 0 <= k <= f.x2 - f.x1 => At(f, k))
  }

  /** The pixels of the segment from a to b, in order from a to b. */
  function Line(a: Point, b: Point): seq<Point>
  {
    var t := Trace(Normalize(a, b));
    if Swapped(a, b) then Reverse(t) else t
  }

  /** The walk starts on the frame's first endpoint and ends on its second. */
  lemma AtEnds(f: Frame)
    requires Ordered(f)
    ensures At(f, 0) == Plot(f.steep, f.x1, f.y1)
    ensures At(f, f.x2 - f.x1) == Plot(f.steep, f.x2, f.y2)
  {
    var dx, dy := f.x2 - f.x1, Abs(f.y2 - f.y1);
    assert Steps(dx, dy, 0) == 0;
    ReachesEnd(dx, dy);
    assert Dependent(f, dy) == f.y2;
  }

  lemma TraceEnds(f: Frame)
    requires Ordered(f)
    ensures Trace(f)[0] == Plot(f.steep, f.x1, f.y1)
    ensures Trace(f)[f.x2 - f.x1] == Plot(f.steep, f.x2, f.y2)
  {
    AtEnds(f);
  }

  /** Length `max(|dx|, |dy|) + 1`, first point a, last point b; a single point when
      a == b. */
  lemma LineShape(a: Point, b: Point)
    ensures |Line(a, b)| == Max(Abs(b.x - a.x), Abs(b.y - a.y)) + 1
    ensures Line(a, b)[0] == a
    ensures Line(a, b)[|Line(a, b)| - 1] == b
    ensures a == b ==> Line(a, b) == [a]
  {
    TraceEnds(Normalize(a, b));
  }

  /** Drawing from b to a gives the same pixels in the opposite order: both calls walk
      the same frame and only the `reversed` flag differs. */
  lemma LineReversal(a: Point, b: Point)
    ensures Line(b, a) == Reverse(Line(a, b))
  {
    if a == b {
      LineShape(a, b);
    } else {
      assert Normalize(b, a) == Normalize(a, b);
      assert Swapped(b, a) == !Swapped(a, b);
      ReverseReverse(Trace(Normalize(a, b)));
    }
  }

  /** The coordinate moves from u to v without moving away from `to`, having started
      at `from`; it stays put when both ends agree on it. */
  predicate Toward(u: int, v: int, from: int, to: int)
  {
    && (from < to ==> u <= v)
    && (to < from ==> v <= u)
    && (from == to ==> u == v)
  }

  /** One step of a line drawn from a to b: exactly one pixel along the axis with the
      larger delta, at most one along the other, each coordinate heading toward b. */
  predicate KingStep(a: Point, b: Point, p: Point, q: Point)
  {
    && (if Abs(b.y - a.y) > Abs(b.x - a.x)
        then Abs(q.y - p.y) == 1 && Abs(q.x - p.x) <= 1
        else Abs(q.x - p.x) == 1 && Abs(q.y - p.y) <= 1)
    && Toward(p.x, q.x, a.x, b.x)
    && Toward(p.y, q.y, a.y, b.y)
  }

  lemma KingStepFlip(a: Point, b: Point, p: Point, q: Point)
    requires KingStep(a, b, p, q)
    ensures KingStep(b, a, q, p)
  {
  }

  lemma TraceStep(f: Frame, k: nat)
    requires Ordered(f) && k < f.x2 - f.x1
    requires f.steep ==> Abs(f.y2 - f.y1) < f.x2 - f.x1
    ensures KingStep(Plot(f.steep, f.x1, f.y1), Plot(f.steep, f.x2, f.y2), At(f, k), At(f, k + 1))
  {
    var dx, dy := f.x2 - f.x1, Abs(f.y2 - f.y1);
    StepUnit(dx, dy, k);
    StepsBounded(dx, dy, k + 1);
  }

  /** A step of the trace in canvas terms, relative to the endpoints it runs between. */
  lemma TraceKingStep(a: Point, b: Point, k: nat)
    requires k < |Trace(Normalize(a, b))| - 1
    ensures var t := Trace(Normalize(a, b));
            if Swapped(a, b) then KingStep(b, a, t[k], t[k + 1]) else KingStep(a, b, t[k], t[k + 1])
  {
    var f := Normalize(a, b);
    TraceStep(f, k);
  }

  lemma LineStep(a: Point, b: Point, k: nat)
    requires k < |Line(a, b)| - 1
    ensures KingStep(a, b, Line(a, b)[k], Line(a, b)[k + 1])
  {
    var t := Trace(Normalize(a, b));
    if Swapped(a, b) {
      var m := |t| - 2 - k;
      TraceKingStep(a, b, m);
      KingStepFlip(b, a, t[m], t[m + 1]);
    } else {
      TraceKingStep(a, b, k);
    }
  }

  /** Consecutive pixels of a line are 8-connected and advance monotonically toward b. */
  lemma LineConnected(a: Point, b: Point)
    ensures forall k :: 0 <= k < |Line(a, b)| - 1 ==> KingStep(a, b, Line(a, b)[k], Line(a, b)[k + 1])
  {
    forall k | 0 <= k < |Line(a, b)| - 1
      ensures KingStep(a, b, Line(a, b)[k], Line(a, b)[k + 1])
    {
      LineStep(a, b, k);
    }
  }

  /** Rows u, u + 1, ..., v of column x, or u, u - 1, ..., v when v < u. */
  function Run(x: nat, u: nat, v: nat): seq<Point>
  {
    seq(Abs(v - u) + 1, k requires 0 <= k <= Abs(v - u) => Point(x, if u <= v then u + k else u - k))
  }

  /** Columns u, u + 1, ..., v of row y, or u, u - 1, ..., v when v < u. */
  function Row(y: nat, u: nat, v: nat): seq<Point>
  {
    seq(Abs(v - u) + 1, k requires 0 <= k <= Abs(v - u) => Point(if u <= v then u + k else u - k, y))
  }

  /** With no dependent delta the walk never leaves the starting row of its frame. */
  lemma FlatTrace(f: Frame)
    requires Ordered(f) && f.y1 == f.y2
    ensures forall k :: 0 <= k <= f.x2 - f.x1 ==> Trace(f)[k] == Plot(f.steep, f.x1 + k, f.y1)
  {
    forall k | 0 <= k <= f.x2 - f.x1
      ensures Trace(f)[k] == Plot(f.steep, f.x1 + k, f.y1)
    {
      FlatSteps(f.x2 - f.x1, k);
    }
  }

  /** A vertical segment is the column's pixels one row at a time, downward or upward
      as the endpoints say. */
  lemma VerticalLine(x: nat, u: nat, v: nat)
    ensures Line(Point(x, u), Point(x, v)) == Run(x, u, v)
  {
    FlatTrace(Normalize(Point(x, u), Point(x, v)));
  }

  /** A horizontal segment is the row's pixels one column at a time, rightward or
      leftward as the endpoints say. */
  lemma HorizontalLine(y: nat, u: nat, v: nat)
    ensures Line(Point(u, y), Point(v, y)) == Row(y, u, v)
  {
    if u <= v {
      FlatTrace(Normalize(Point(u, y), Point(v, y)));
    } else {
      FlatTrace(Normalize(Point(v, y), Point(u, y)));
      LineReversal(Point(v, y), Point(u, y));
    }
  }

  /** The swap loop at the end of get_line_bres: swapping i with end - i for every i
      below half the length reverses the points. */
  method ReverseInPlace<T>(s: seq<T>) returns (r: seq<T>)
    ensures r == Reverse(s)
  {
    r := s;
    var n := |r|;
    var i := 0;
    while i < n / 2
      invariant 0 <= i <= n / 2 && |r| == n
      invariant forall k :: 0 <= k < i ==> r[k] == s[n - 1 - k] && r[n - 1 - k] == s[k]
      invariant forall k :: i <= k < n - i ==> r[k] == s[k]
    {
      var end := n - 1;
      r := r[i := r[end - i]][end - i := r[i]];
      i := i + 1;
    }
  }

  /** One iteration of the walk: the point emitted at column n, and the error term and
      step count after it, follow the accumulator. */
  lemma WalkStep(f: Frame, n: nat, err: int, j: nat)
    requires Ordered(f) && n <= f.x2 - f.x1
    requires (err, j) == Accumulate(f.x2 - f.x1, Abs(f.y2 - f.y1), n)
    ensures At(f, n) == Plot(f.steep, f.x1 + n, Dependent(f, j))
    ensures var e := err - Abs(f.y2 - f.y1);
            Accumulate(f.x2 - f.x1, Abs(f.y2 - f.y1), n + 1)
              == if e < 0 then (e + (f.x2 - f.x1), j + 1) else (e, j)
  {
    StepsBounded(f.x2 - f.x1, Abs(f.y2 - f.y1), n);
  }

  /** The error-accumulator loop of get_line_bres over a normalized frame: one point per
      column from x1 to x2, the dependent coordinate moving by ystep whenever the error
      drops below zero. */
  method Walk(f: Frame) returns (points: seq<Point>)
    requires Ordered(f)
    ensures points == Trace(f)
  {
    var x1: int, y1: int, x2: int, y2: int := f.x1, f.y1, f.x2, f.y2;
    var dx := x2 - x1;
    var dy := Abs(y2 - y1);
    var err := dx / 2;
    var y: int := y1;
    var ystep: int := if y1 < y2 then 1 else -1;
    ghost var j: nat := 0;
    points := [];
    var x := x1;
    while x < x2 + 1
      invariant x1 <= x <= x2 + 1
      invariant |points| == x - x1
      invariant forall k :: 0 <= k < |points| ==> points[k] == At(f, k)
      invariant (err, j) == Accumulate(dx, dy, x - x1)
      invariant y == Dependent(f, j)
    {
      WalkStep(f, x - x1, err, j);
      if f.steep {
        points := points + [Point(y, x)];
      } else {
        points := points + [Point(x, y)];
      }
      err := err - dy;
      if err < 0 {
        y := y + ystep;
        err := err + dx;
        j := j + 1;
      }
      x := x + 1;
    }
  }

  /** get_line_bres: the steep swap, the left-to-right swap, the loop and the final
      reversal, proved to produce exactly `Line(a, b)`. */
  method GetLineBres(a: Point, b: Point) returns (points: seq<Point>)
    ensures points == Line(a, b)
    ensures |points| == Max(Abs(b.x - a.x), Abs(b.y - a.y)) + 1
    ensures points[0] == a && points[|points| - 1] == b
  {
    var f, reversed := Setup(a, b);
    points := Walk(f);
    if reversed {
      points := ReverseInPlace(points);
    }
    LineShape(a, b);
  }

  /** The set-up of get_line_bres: exchange x and y for a steep line, then the
      endpoints so that the driving coordinate increases, remembering whether they
      were exchanged. */
  method Setup(a: Point, b: Point) returns (f: Frame, reversed: bool)
    ensures f == Normalize(a, b) && reversed == Swapped(a, b)
  {
    var x1: nat, y1: nat, x2: nat, y2: nat := a.x, a.y, b.x, b.y;
    var isSteep := Abs(y2 - y1) > Abs(x2 - x1);
    if isSteep {
      x1, y1 := y1, x1;
      x2, y2 := y2, x2;
    }
    reversed := false;
    if x1 > x2 {
      x1, x2 := x2, x1;
      y1, y2 := y2, y1;
      reversed := true;
    }
    f := Frame(isSteep, x1, y1, x2, y2);
  }
}

=== FILE: circle.dfy ===
/** The midpoint circle rasterizer, `get_circle_points`. The reference definition
    `Circle` walks the first-octant arc deciding each step by the closed-form error
    x² + y² + 2y - r²; the method `GetCirclePoints` runs the program's loop, whose error
    accumulator is proved to equal that closed form, and produces exactly `Circle(c, r)`. */
module MidpointCircle {
  import opened Geometry

  /** An offset (x, y) from the centre, with 0 <= y <= x on the arc. */
  datatype Offset = Offset(x: int, y: int)

  /** The algorithm's error term for offset o: x² + y² + 2y - r². */
  function Err(r: int, o: Offset): int
  {
    o.x * o.x + o.y * o.y + 2 * o.y - r * r
  }

  /** How the error term changes under each of the two moves; the program updates its
      accumulator by exactly these amounts. */
  lemma ErrMoves(r: int, o: Offset)
    ensures Err(r, Offset(o.x, o.y + 1)) == Err(r, o) + 2 * (o.y + 1) + 1
    ensures Err(r, Offset(o.x - 1, o.y)) == Err(r, o) - 2 * (o.x - 1) - 1
  {
    assert (o.y + 1) * (o.y + 1) == o.y * o.y + 2 * o.y + 1;
    assert (o.x - 1) * (o.x - 1) == o.x * o.x - 2 * o.x + 1;
  }

  /** The error term at the next offset, from the one at o: the accumulator update of
      get_circle_points. */
  lemma ErrNext(r: int, o: Offset)
    ensures Err(r, Next(r, o)) == if Err(r, o) <= 0 then Err(r, o) + 2 * (o.y + 1) + 1
                                  else Err(r, o) - 2 * (o.x - 1) - 1
  {
    ErrMoves(r, o);
  }

  /** The offset visited after o: one row up when the error term is not positive,
      otherwise one column in. */
  function Next(r: int, o: Offset): Offset
  {
    if Err(r, o) <= 0 then Offset(o.x, o.y + 1) else Offset(o.x - 1, o.y)
  }

  /** The offsets visited from o while x >= y. Each step lowers x - y by one, so the
      arc has x - y + 1 offsets and they stay inside the triangle y <= x of o. */
  function Arc(r: int, o: Offset): (arc: seq<Offset>)
    ensures |arc| == if o.x < o.y then 0 else o.x - o.y + 1
    ensures forall i :: 0 <= i < |arc| ==> o.y <= arc[i].y <= arc[i].x <= o.x
    ensures forall i :: 0 <= i < |arc| ==> arc[i].x - arc[i].y == o.x - o.y - i
    decreases o.x - o.y + 1
  {
    if o.x < o.y then [] else [o] + Arc(r, Next(r, o))
  }

  /** The eight reflections of offset o around c, in the order the program pushes them. */
  function Octants(c: Point, o: Offset): seq<Point>
    requires 0 <= o.y <= o.x && o.x <= c.x && o.x <= c.y
  {
    [ Point(c.x + o.x, c.y + o.y), Point(c.x + o.y, c.y + o.x)
    , Point(c.x - o.y, c.y + o.x), Point(c.x - o.x, c.y + o.y)
    , Point(c.x - o.x, c.y - o.y), Point(c.x - o.y, c.y - o.x)
    , Point(c.x + o.y, c.y - o.x), Point(c.x + o.x, c.y - o.y) ]
  }

  /** Offsets whose reflections around c cannot leave the unsigned coordinate range. */
  predicate Reflectable(c: Point, arc: seq<Offset>)
  {
    forall i :: 0 <= i < |arc| ==> 0 <= arc[i].y <= arc[i].x && arc[i].x <= c.x && arc[i].x <= c.y
  }

  /** The eight reflections of every offset, group after group. */
  function Ring(c: Point, arc: seq<Offset>): (pts: seq<Point>)
    requires Reflectable(c, arc)
  {
    if arc == [] then [] else Ring(c, arc[..|arc| - 1]) + Octants(c, arc[|arc| - 1])
  }

  /** The points of the circle of radius r around c. */
  function Circle(c: Point, r: int): seq<Point>
    requires r <= c.x && r <= c.y
  {
    Ring(c, Arc(r, Offset(r, 0)))
  }

  /** Visiting o moves it from the rest of the arc to the visited prefix. */
  lemma ArcAdvance(r: int, visited: seq<Offset>, o: Offset)
    requires o.x >= o.y
    ensures (visited + [o]) + Arc(r, Next(r, o)) == visited + Arc(r, o)
  {
    assert Arc(r, o) == [o] + Arc(r, Next(r, o));
  }

  lemma RingSnoc(c: Point, arc: seq<Offset>, o: Offset)
    requires Reflectable(c, arc)
    requires 0 <= o.y <= o.x && o.x <= c.x && o.x <= c.y
    ensures Reflectable(c, arc + [o])
    ensures Ring(c, arc + [o]) == Ring(c, arc) + Octants(c, o)
  {
    assert (arc + [o])[..|arc|] == arc;
  }

  lemma {:induction false} RingLength(c: Point, arc: seq<Offset>)
    requires Reflectable(c, arc)
    ensures |Ring(c, arc)| == 8 * |arc|
  {
    if arc != [] {
      RingLength(c, arc[..|arc| - 1]);
    }
  }

  /** One move of the loop of get_circle_points: up a row when the accumulator is not
      positive, else (the `else if err > 0` branch) one column in, with the accumulator
      updated to the error term of the new offset. */
  method Advance(radius: int, x: int, y: int, err: int) returns (x': int, y': int, err': int)
    requires err == Err(radius, Offset(x, y))
    ensures Offset(x', y') == Next(radius, Offset(x, y))
    ensures err' == Err(radius, Offset(x', y'))
    ensures y <= y' && x' <= x && x' - y' == x - y - 1
  {
    ErrNext(radius, Offset(x, y));
    x', y', err' := x, y, err;
    if err' <= 0 {
      y' := y' + 1;
      err' := err' + 2 * y' + 1;
    } else if err' > 0 {
      x' := x' - 1;
      err' := err' - 2 * x' - 1;
    }
  }

  /** Group k of eight consecutive points of a ring is the eight reflections of the
      k-th offset. */
  lemma {:induction false} RingGroups(c: Point, arc: seq<Offset>, k: nat)
    requires Reflectable(c, arc) && k < |arc|
    ensures |Ring(c, arc)| == 8 * |arc|
    ensures Ring(c, arc)[8 * k .. 8 * k + 8] == Octants(c, arc[k])
  {
    var last := |arc| - 1;
    var init := arc[..last];
    RingLength(c, arc);
    RingLength(c, init);
    if k < last {
      assert init[k] == arc[k];
      RingGroups(c, init, k);
      assert Ring(c, arc)[8 * k .. 8 * k + 8] == Ring(c, init)[8 * k .. 8 * k + 8];
    } else {
      assert Ring(c, arc)[8 * k .. 8 * k + 8] == Octants(c, arc[last]);
    }
  }

  /** The circle of radius r >= 0 is r + 1 groups of eight points; group k is the
      eight reflections around c of one offset (x, y) with 0 <= y <= x <= r. */
  lemma CircleGroups(c: Point, r: int, k: nat)
    requires r <= c.x && r <= c.y && k <= r
    ensures |Circle(c, r)| == 8 * (r + 1)
    ensures var o := Arc(r, Offset(r, 0))[k];
      && 0 <= o.y <= o.x <= r
      && Circle(c, r)[8 * k .. 8 * k + 8] == Octants(c, o)
  {
    RingGroups(c, Arc(r, Offset(r, 0)), k);
  }

  /** get_circle_points. The accumulator `err` always equals Err(r, (x, y)), so the
      program's branch on `err <= 0` is the reference's branch on the closed-form error;
      the loop runs r + 1 times and returns 8 (r + 1) points (none for a negative
      radius). The requires rules out the u32 wrap of `center - x`. */
  method GetCirclePoints(center: Point, radius: int) returns (points: seq<Point>)
    requires radius <= center.x && radius <= center.y
    ensures points == Circle(center, radius)
    ensures |points| == if radius < 0 then 0 else 8 * (radius + 1)
  {
    var x := radius;
    var y := 0;
    var err := 0;
    points := [];
    ghost var visited: seq<Offset> := [];
    while x >= y
      invariant 0 <= y && x <= radius
      invariant err == Err(radius, Offset(x, y))
      invariant visited + Arc(radius, Offset(x, y)) == Arc(radius, Offset(radius, 0))
      invariant Reflectable(center, visited)
      invariant points == Ring(center, visited)
      decreases x - y + 1
    {
      var o := Offset(x, y);
      points := points + Octants(center, o);
      RingSnoc(center, visited, o);
      ArcAdvance(radius, visited, o);
      visited := visited + [o];
      x, y, err := Advance(radius, x, y, err);
    }
    assert visited == Arc(radius, Offset(radius, 0));
    RingLength(center, visited);
  }

  /** The error term is kept in (-2x - 1, 2y + 1]: the invariant behind the closeness of
      every visited offset to the true circle. */
  predicate OnTrack(r: int, o: Offset)
  {
    -2 * o.x - 1 < Err(r, o) <= 2 * o.y + 1
  }

  /** The offset lies in the annulus r² - 2(x + y) - 1 < x² + y² <= r² + 1. */
  predicate NearCircle(r: int, o: Offset)
  {
    r * r - 2 * (o.x + o.y) - 1 < o.x * o.x + o.y * o.y <= r * r + 1
  }

  lemma OnTrackNext(r: int, o: Offset)
    requires 0 <= o.y <= o.x && OnTrack(r, o)
    ensures OnTrack(r, Next(r, o))
    ensures NearCircle(r, o)
  {
    ErrMoves(r, o);
    assert r * r >= 0;
  }

  lemma {:induction false} ArcNear(r: int, o: Offset)
    requires 0 <= o.y && OnTrack(r, o)
    ensures forall i :: 0 <= i < |Arc(r, o)| ==> NearCircle(r, Arc(r, o)[i])
    decreases o.x - o.y + 1
  {
    if o.x >= o.y {
      OnTrackNext(r, o);
      ArcNear(r, Next(r, o));
      assert Arc(r, o) == [o] + Arc(r, Next(r, o));
    }
  }

  lemma {:induction false} ArcEnd(r: int, o: Offset)
    requires o.x >= o.y
    ensures Arc(r, o)[|Arc(r, o)| - 1].x == Arc(r, o)[|Arc(r, o)| - 1].y
    decreases o.x - o.y + 1
  {
    var n := Next(r, o);
    if n.x >= n.y {
      ArcEnd(r, n);
    }
  }

  /** The first-octant arc of radius r starts at (r, 0), ends on the diagonal x == y and
      every offset on it is within the annulus of NearCircle. */
  lemma FirstOctant(r: int)
    requires r >= 0
    ensures Arc(r, Offset(r, 0))[0] == Offset(r, 0)
    ensures var arc := Arc(r, Offset(r, 0)); arc[|arc| - 1].x == arc[|arc| - 1].y
    ensures forall o :: o in Arc(r, Offset(r, 0)) ==> NearCircle(r, o)
  {
    ArcEnd(r, Offset(r, 0));
    ArcNear(r, Offset(r, 0));
  }

  /** Every point of a ring comes from one of its offsets. */
  lemma {:induction false} RingMember(c: Point, arc: seq<Offset>, p: Point)
    requires Reflectable(c, arc) && p in Ring(c, arc)
    ensures exists i :: 0 <= i < |arc| && p in Octants(c, arc[i])
  {
    var last := |arc| - 1;
    if p in Octants(c, arc[last]) {
    } else {
      RingMember(c, arc[..last], p);
      var i :| 0 <= i < last && p in Octants(c, arc[..last][i]);
      assert arc[..last][i] == arc[i];
    }
  }

  /** q is one of the eight images of p under the symmetries of a circle centred at c:
      its offset from c is p's offset with signs flipped and/or coordinates exchanged. */
  predicate Reflection(c: Point, p: Point, q: Point)
  {
    var u, v, s, t := p.x - c.x, p.y - c.y, q.x - c.x, q.y - c.y;
    (Abs(s) == Abs(u) && Abs(t) == Abs(v)) || (Abs(s) == Abs(v) && Abs(t) == Abs(u))
  }

  /** The reflections of o are exactly the points whose offsets from c are o's
      coordinates, signs free, in either order. */
  lemma OctantsByOffset(c: Point, o: Offset, p: Point)
    requires 0 <= o.y <= o.x && o.x <= c.x && o.x <= c.y
    ensures p in Octants(c, o) <==>
      var s, t := Abs(p.x - c.x), Abs(p.y - c.y);
      (s == o.x && t == o.y) || (s == o.y && t == o.x)
  {
    var s, t := Abs(p.x - c.x), Abs(p.y - c.y);
    if (s == o.x && t == o.y) || (s == o.y && t == o.x) {
      assert p == Point(c.x + (p.x - c.x), c.y + (p.y - c.y));
    }
  }

  lemma OctantsClosed(c: Point, o: Offset, p: Point, q: Point)
    requires 0 <= o.y <= o.x && o.x <= c.x && o.x <= c.y
    requires p in Octants(c, o) && Reflection(c, p, q)
    ensures q in Octants(c, o)
  {
    OctantsByOffset(c, o, p);
    OctantsByOffset(c, o, q);
  }

  /** The circle has the eight-fold symmetry of the true circle: with every point it
      contains all of that point's reflections around the centre. */
  lemma CircleSymmetric(c: Point, r: int)
    requires r <= c.x && r <= c.y
    ensures forall p, q :: p in Circle(c, r) && Reflection(c, p, q) ==> q in Circle(c, r)
  {
    var arc := Arc(r, Offset(r, 0));
    forall p, q | p in Circle(c, r) && Reflection(c, p, q)
      ensures q in Circle(c, r)
    {
      RingMember(c, arc, p);
      var i :| 0 <= i < |arc| && p in Octants(c, arc[i]);
      OctantsClosed(c, arc[i], p, q);
      RingHas(c, arc, i, q);
    }
  }

  lemma {:induction false} RingHas(c: Point, arc: seq<Offset>, i: nat, q: Point)
    requires Reflectable(c, arc) && i < |arc| && q in Octants(c, arc[i])
    ensures q in Ring(c, arc)
  {
    var last := |arc| - 1;
    if i < last {
      assert arc[..last][i] == arc[i];
      RingHas(c, arc[..last], i, q);
    }
  }

  /** Every point of the circle lies in the square of half-width r around the centre. */
  lemma CircleInSquare(c: Point, r: int)
    requires r <= c.x && r <= c.y
    ensures forall p :: p in Circle(c, r) ==> Abs(p.x - c.x) <= r && Abs(p.y - c.y) <= r
  {
    var arc := Arc(r, Offset(r, 0));
    forall p | p in Circle(c, r)
      ensures Abs(p.x - c.x) <= r && Abs(p.y - c.y) <= r
    {
      RingMember(c, arc, p);
      var i :| 0 <= i < |arc| && p in Octants(c, arc[i]);
      OctantsByOffset(c, arc[i], p);
    }
  }

  /** An arc that starts on the diagonal has that single offset. */
  lemma ArcFromDiagonal(r: int, o: Offset)
    requires o.x == o.y
    ensures Arc(r, o) == [o]
  {
    assert Arc(r, Next(r, o)) == [];
  }

  /** Radius zero gives the centre eight times, once per reflection. */
  lemma CircleRadiusZero(c: Point)
    ensures Circle(c, 0) == [c, c, c, c, c, c, c, c]
  {
    var o := Offset(0, 0);
    ArcFromDiagonal(0, o);
    assert [o][..0] == [];
    assert Ring(c, [o]) == Ring(c, []) + Octants(c, o);
  }
}

=== FILE: compositor.dfy ===
/** The picture `main` paints: a sky-coloured background, the wheel (its centre and the
    rings of radius 1 .. radius - 1), then each mountain layer in turn, back to front.
    A layer is its midpoint-displacement ridge drawn as Bresenham segments between
    consecutive ridge points, with every outline pixel filled down to the bottom row by
    a vertical Bresenham line. Every write is gated by the bounds check and overwrites
    the pixel. */
module Compositor {
  import opened Geometry
  import opened Bresenham
  import opened MidpointCircle
  import opened Ridge
  import opened Raster

  /** One mountain layer: its left and right ridge end points and its colour. */
  datatype Layer = Layer(a: Point, b: Point, color: Color)

  /** Everything `main` takes from its constants: canvas size, colours, the wheel's
      centre and radius bound, the layers back to front, and the displacement
      iteration count. */
  datatype Scene = Scene(width: nat, height: nat, sky: Color, wheel: Color,
                         center: Point, radius: int, layers: seq<Layer>, iterations: nat)

  /** What the program's unsigned arithmetic needs: the bottom row `height - 1`
      exists, and no ring of radius up to radius - 1 reaches past the canvas origin. */
  predicate Renderable(s: Scene)
  {
    s.height >= 1 && s.radius - 1 <= s.center.x && s.radius - 1 <= s.center.y
  }

  /** Every write of a wheel of radius bound n: the centre c, then the rings of radius
      1 .. n - 1 around it, in drawing order. */
  function WheelPoints(c: Point, n: int): seq<Point>
    requires n - 1 <= c.x && n - 1 <= c.y
    decreases n
  {
    if n <= 1 then [c] else WheelPoints(c, n - 1) + Circle(c, n - 1)
  }

  /** The pixels written for one outline pixel p: p itself, then the vertical line from
      the row below p down (or up) to the bottom row. */
  function Column(p: Point, bottom: nat): seq<Point>
  {
    [p] + Run(p.x, p.y + 1, bottom)
  }

  /** The columns of every pixel of ps, in order. */
  function Columns(ps: seq<Point>, bottom: nat): seq<Point>
  {
    FlatMap(p => Column(p, bottom), ps)
  }

  /** The Bresenham segments between consecutive ridge points, joined in order. */
  function Outline(ridge: seq<Point>): seq<Point>
  {
    Chain(Line, ridge)
  }

  /** q lies in p's column, at or below p, on the canvas: the rows a column fill reaches.
      An outline pixel at or below the bottom row still paints the bottom row. */
  predicate Under(q: Point, p: Point, h: nat)
  {
    q.x == p.x && Min(p.y, h - 1) <= q.y < h
  }

  /** q is filled by some pixel of the outline. */
  predicate UnderOutline(outline: seq<Point>, q: Point, h: nat)
  {
    exists p :: p in outline && Under(q, p, h)
  }

  /** Every pixel a layer writes, given its ridge: each outline pixel's column. */
  function LayerFill(ridge: seq<Point>, bottom: nat): seq<Point>
  {
    Columns(Outline(ridge), bottom)
  }

  /** The layers' ridges; layer i draws its ridge from its own random stream `draw(i)`. */
  function Ridges(s: Scene, draw: nat -> nat -> int): (ridges: seq<seq<Point>>)
    ensures |ridges| == |s.layers|
  {
    seq(|s.layers|, i requires 0 <= i < |s.layers| =>
      Displace(s.layers[i].a, s.layers[i].b, s.iterations, draw(i)))
  }

  /** What each layer writes, given the ridges. */
  function Fills(ridges: seq<seq<Point>>, bottom: nat): (fills: seq<seq<Point>>)
    ensures |fills| == |ridges|
  {
    seq(|ridges|, i requires 0 <= i < |ridges| => LayerFill(ridges[i], bottom))
  }

  /** The strokes in painting order: the wheel's writes, then each layer's, back to
      front. */
  function Strokes(s: Scene, wheel: seq<Point>, fills: seq<seq<Point>>): (strokes: seq<Stroke>)
    requires |fills| == |s.layers|
    ensures |strokes| == |fills| + 1
  {
    [Stroke(wheel, s.wheel)]
      + seq(|fills|, i requires 0 <= i < |fills| => Stroke(fills[i], s.layers[i].color))
  }

  /** The sky-filled canvas with the strokes painted over it in order. */
  function Painted(s: Scene, wheel: seq<Point>, fills: seq<seq<Point>>): Canvas
    requires |fills| == |s.layers|
  {
    Composite(Blank(s.width, s.height, s.sky), Strokes(s, wheel, fills))
  }

  /** The finished picture. */
  function Picture(s: Scene, draw: nat -> nat -> int): Canvas
    requires Renderable(s)
  {
    Painted(s, WheelPoints(s.center, s.radius), Fills(Ridges(s, draw), s.height - 1))
  }

  // ----- Coverage -----

  /** The on-canvas pixels a column fill writes are exactly those Under its pixel. */
  lemma ColumnRows(p: Point, h: nat, q: Point)
    requires h >= 1 && q.y < h
    ensures q in Column(p, h - 1) <==> Under(q, p, h)
  {
    var fill := Run(p.x, p.y + 1, h - 1);
    if Under(q, p, h) && q != p {
      if p.y + 1 <= h - 1 {
        assert fill[q.y - p.y - 1] == q;
      } else {
        assert fill[p.y + 1 - q.y] == q;
      }
    }
  }

  /** The on-canvas pixels the columns of ps write are those Under some pixel of ps. */
  lemma ColumnsCover(ps: seq<Point>, h: nat, q: Point)
    requires h >= 1 && q.y < h
    ensures q in Columns(ps, h - 1) <==> UnderOutline(ps, q, h)
  {
    FlatMapHas(p => Column(p, h - 1), ps, q);
    forall p | p in ps
      ensures q in Column(p, h - 1) <==> Under(q, p, h)
    {
      ColumnRows(p, h, q);
    }
  }

  /** Every Bresenham segment is non-empty and runs between its endpoints. */
  lemma LineJoins()
    ensures Joins(Line)
  {
    forall a, b
      ensures |Line(a, b)| >= 1 && Line(a, b)[0] == a && Line(a, b)[|Line(a, b)| - 1] == b
    {
      LineShape(a, b);
    }
  }

  /** The outline starts at the first ridge point and ends at the last. */
  lemma OutlineEnds(ridge: seq<Point>)
    requires |ridge| >= 2
    ensures var o := Outline(ridge); |o| >= 1 && o[0] == ridge[0] && o[|o| - 1] == ridge[|ridge| - 1]
  {
    LineJoins();
    ChainEnds(Line, ridge);
  }

  /** The outline passes through every ridge point. */
  lemma OutlineThroughRidge(ridge: seq<Point>)
    requires |ridge| >= 2
    ensures forall i :: 0 <= i < |ridge| ==> ridge[i] in Outline(ridge)
  {
    LineJoins();
    ChainThrough(Line, ridge);
  }

  // ----- Painting: the loops of main -----

  /** The wheel: one gated write of the centre, then a gated write of every point of
      each ring of radius 1 .. radius - 1. */
  method StampWheel(c: Canvas, center: Point, radius: int, color: Color) returns (d: Canvas)
    requires radius - 1 <= center.x && radius - 1 <= center.y
    ensures d == PaintAll(c, WheelPoints(center, radius), color)
  {
    ghost var done: seq<Point>;
    d, done := StampCentre(c, center, color);
    var n := if radius < 1 then 1 else radius;
    var i := 1;
    while i < n
      invariant 1 <= i <= n
      invariant done == WheelPoints(center, i)
      invariant d == PaintAll(c, done, color)
    {
      d, done := StampRing(c, d, center, i, color, done);
      i := i + 1;
    }
  }

  /** The centre pixel of the wheel: its gated write. */
  method StampCentre(c: Canvas, center: Point, color: Color) returns (d: Canvas, ghost done: seq<Point>)
    ensures d == PaintAll(c, [center], color)
    ensures done == WheelPoints(center, 1) && d == PaintAll(c, done, color)
  {
    d := PaintPoints(c, [center], color);
    done := [center];
  }

  /** One ring of the wheel: a gated write of every point get_circle_points returns,
      over the centre and the smaller rings. */
  method StampRing(c: Canvas, d: Canvas, center: Point, radius: int, color: Color, ghost done: seq<Point>)
    returns (e: Canvas, ghost done': seq<Point>)
    requires 1 <= radius <= center.x && radius <= center.y
    requires done == WheelPoints(center, radius) && d == PaintAll(c, done, color)
    ensures e == PaintAll(d, Circle(center, radius), color)
    ensures done' == WheelPoints(center, radius + 1) && e == PaintAll(c, done', color)
  {
    var ring := GetCirclePoints(center, radius);
    PaintAllAppend(c, done, ring, color);
    e := PaintPoints(d, ring, color);
    done' := done + ring;
  }

  /** One outline pixel: its gated write, then the gated writes of the vertical line
      from the row below it to the bottom row. */
  method FillColumn(c: Canvas, point: Point, bottom: nat, color: Color) returns (d: Canvas)
    ensures d == PaintAll(c, Column(point, bottom), color)
  {
    d := PaintPoints(c, [point], color);
    var fill := VerticalRun(point.x, point.y + 1, bottom);
    PaintAllAppend(c, [point], fill, color);
    d := PaintPoints(d, fill, color);
  }

  /** get_line_bres between two pixels of column x: the rows from u to v. */
  method VerticalRun(x: nat, u: nat, v: nat) returns (run: seq<Point>)
    ensures run == Run(x, u, v)
  {
    run := GetLineBres(Point(x, u), Point(x, v));
    VerticalLine(x, u, v);
  }

  /** Every pixel of one Bresenham segment, filled down to the bottom row. */
  method FillColumns(c: Canvas, line: seq<Point>, bottom: nat, color: Color) returns (d: Canvas)
    ensures d == PaintAll(c, Columns(line, bottom), color)
  {
    d := c;
    var k := 0;
    while k < |line|
      invariant 0 <= k <= |line|
      invariant d == PaintAll(c, Columns(line[..k], bottom), color)
    {
      FlatMapPrefix(p => Column(p, bottom), line, k);
      PaintAllAppend(c, Columns(line[..k], bottom), Column(line[k], bottom), color);
      d := FillColumn(d, line[k], bottom, color);
      k := k + 1;
    }
    assert line[..|line|] == line;
  }

  /** One layer: the outline segment by segment, each pixel filled down to the bottom. */
  method PaintLayer(c: Canvas, ridge: seq<Point>, bottom: nat, color: Color) returns (d: Canvas)
    requires |ridge| >= 1
    ensures d == PaintAll(c, LayerFill(ridge, bottom), color)
  {
    d := c;
    var j := 0;
    while j < |ridge| - 1
      invariant 0 <= j <= |ridge| - 1
      invariant d == PaintAll(c, Columns(Outline(ridge[..j + 1]), bottom), color)
    {
      var segment := GetLineBres(ridge[j], ridge[j + 1]);
      var done := Outline(ridge[..j + 1]);
      assert ridge[..j + 2][..j + 1] == ridge[..j + 1];
      assert Outline(ridge[..j + 2]) == done + segment;
      FlatMapAppend(p => Column(p, bottom), done, segment);
      PaintAllAppend(c, Columns(done, bottom), Columns(segment, bottom), color);
      d := FillColumns(d, segment, bottom, color);
      j := j + 1;
    }
    assert ridge[..|ridge|] == ridge;
  }

  /** One pass of the layers loop: layer i's ridge from midpoint_displacement, then
      the ridge painted. */
  method DrawLayer(s: Scene, draw: nat -> nat -> int, i: nat, c: Canvas, ghost stroke: Stroke) returns (d: Canvas)
    requires Renderable(s) && i < |s.layers|
    requires stroke == Stroke(LayerFill(Ridges(s, draw)[i], s.height - 1), s.layers[i].color)
    ensures d == PaintAll(c, stroke.points, stroke.color)
  {
    var ridge := LayerRidge(s, draw, i);
    d := PaintLayer(c, ridge, s.height - 1, s.layers[i].color);
  }

  /** midpoint_displacement between layer i's endpoints. */
  method LayerRidge(s: Scene, draw: nat -> nat -> int, i: nat) returns (ridge: seq<Point>)
    requires i < |s.layers|
    ensures ridge == Ridges(s, draw)[i] && |ridge| >= 1
  {
    var layer := s.layers[i];
    ridge := MidpointDisplacement(layer.a, layer.b, s.iterations, draw(i));
    RidgeAt(s, draw, i, ridge);
  }

  /** Layer i's ridge is the one midpoint_displacement returns for its endpoints. */
  lemma RidgeAt(s: Scene, draw: nat -> nat -> int, i: nat, ridge: seq<Point>)
    requires i < |s.layers|
    requires ridge == Displace(s.layers[i].a, s.layers[i].b, s.iterations, draw(i))
    ensures Ridges(s, draw)[i] == ridge
  {
  }

  /** Fill i is ridge i's fill. */
  lemma FillOf(ridges: seq<seq<Point>>, bottom: nat)
    ensures forall i :: 0 <= i < |ridges| ==> Fills(ridges, bottom)[i] == LayerFill(ridges[i], bottom)
  {
  }

  /** Stroke i + 1 is layer i's fill in layer i's colour. */
  lemma StrokeAt(s: Scene, wheel: seq<Point>, fills: seq<seq<Point>>, i: nat)
    requires |fills| == |s.layers| && i < |fills|
    ensures Strokes(s, wheel, fills)[i + 1] == Stroke(fills[i], s.layers[i].color)
  {
  }

  /** Painting a prefix one stroke longer paints that stroke over the shorter prefix. */
  lemma CompositePrefix(c: Canvas, strokes: seq<Stroke>, n: nat)
    requires n < |strokes|
    ensures Composite(c, strokes[..n + 1])
         == PaintAll(Composite(c, strokes[..n]), strokes[n].points, strokes[n].color)
  {
    assert strokes[..n + 1][..n] == strokes[..n];
  }

  /** The layers loop of `main`, painting over a canvas that already holds the first
      stroke, the wheel's. */
  method PaintLayers(s: Scene, draw: nat -> nat -> int, ghost strokes: seq<Stroke>, blank: Canvas, start: Canvas)
    returns (canvas: Canvas)
    requires Renderable(s) && |strokes| == |s.layers| + 1
    requires forall i :: 0 <= i < |s.layers| ==>
      strokes[i + 1] == Stroke(LayerFill(Ridges(s, draw)[i], s.height - 1), s.layers[i].color)
    requires start == Composite(blank, strokes[..1])
    ensures canvas == Composite(blank, strokes)
  {
    canvas := start;
    var i := 0;
    while i < |s.layers|
      invariant 0 <= i <= |s.layers|
      invariant canvas == Composite(blank, strokes[..i + 1])
    {
      CompositePrefix(blank, strokes, i + 1);
      canvas := DrawLayer(s, draw, i, canvas, strokes[i + 1]);
      i := i + 1;
    }
    assert strokes[..|strokes|] == strokes;
  }

  /** Stroke 0 is the wheel's writes in the wheel's colour, stroke i + 1 layer i's
      fill in layer i's colour. */
  lemma StrokesShape(s: Scene, wheel: seq<Point>, fills: seq<seq<Point>>)
    requires |fills| == |s.layers|
    ensures Strokes(s, wheel, fills)[0] == Stroke(wheel, s.wheel)
    ensures forall i :: 0 <= i < |s.layers| ==> Strokes(s, wheel, fills)[i + 1] == Stroke(fills[i], s.layers[i].color)
  {
    forall i | 0 <= i < |s.layers|
      ensures Strokes(s, wheel, fills)[i + 1] == Stroke(fills[i], s.layers[i].color)
    {
      StrokeAt(s, wheel, fills, i);
    }
  }

  /** The compositing part of `main`: background, wheel, then each layer generated and
      painted, back to front. */
  method Render(s: Scene, draw: nat -> nat -> int) returns (canvas: Canvas)
    requires Renderable(s)
    ensures canvas == Picture(s, draw)
    ensures Valid(canvas) && canvas.width == s.width && canvas.height == s.height
  {
    var blank := Blank(s.width, s.height, s.sky);
    ghost var strokes := Strokes(s, WheelPoints(s.center, s.radius), Fills(Ridges(s, draw), s.height - 1));
    var wheel := StampWheel(blank, s.center, s.radius, s.wheel);
    SceneStrokes(s, draw);
    CompositePrefix(blank, strokes, 0);
    canvas := PaintLayers(s, draw, strokes, blank, wheel);
    PictureStrokes(s, draw);
    CompositeValid(blank, strokes);
  }

  /** The picture is the scene's strokes composited over the sky. */
  lemma PictureStrokes(s: Scene, draw: nat -> nat -> int)
    requires Renderable(s)
    ensures Picture(s, draw)
      == Composite(Blank(s.width, s.height, s.sky),
                   Strokes(s, WheelPoints(s.center, s.radius), Fills(Ridges(s, draw), s.height - 1)))
  {
  }

  /** The scene's strokes: the wheel first, then layer i's fill of ridge i. */
  lemma SceneStrokes(s: Scene, draw: nat -> nat -> int)
    requires Renderable(s)
    ensures var strokes := Strokes(s, WheelPoints(s.center, s.radius), Fills(Ridges(s, draw), s.height - 1));
      && strokes[0] == Stroke(WheelPoints(s.center, s.radius), s.wheel)
      && forall i :: 0 <= i < |s.layers| ==>
           strokes[i + 1] == Stroke(LayerFill(Ridges(s, draw)[i], s.height - 1), s.layers[i].color)
  {
    StrokesShape(s, WheelPoints(s.center, s.radius), Fills(Ridges(s, draw), s.height - 1));
    FillOf(Ridges(s, draw), s.height - 1);
  }

  // ----- The picture -----

  /** Every pixel shows the colour of the last stroke covering it, or the sky. */
  lemma Stacked(s: Scene, wheel: seq<Point>, fills: seq<seq<Point>>)
    requires |fills| == |s.layers|
    ensures forall q :: q in Painted(s, wheel, fills).pixels ==>
      Painted(s, wheel, fills).pixels[q] == TopColor(Strokes(s, wheel, fills), q, s.sky)
  {
    var blank := Blank(s.width, s.height, s.sky);
    CompositeValid(blank, Strokes(s, wheel, fills));
    forall q | q in Painted(s, wheel, fills).pixels
      ensures Painted(s, wheel, fills).pixels[q] == TopColor(Strokes(s, wheel, fills), q, s.sky)
    {
      Occlusion(blank, Strokes(s, wheel, fills), q);
    }
  }

  /** A nearer layer hides everything behind it: an on-canvas pixel that layer i writes
      and no later layer writes shows layer i's colour. */
  lemma LayerShows(s: Scene, wheel: seq<Point>, fills: seq<seq<Point>>, q: Point, i: nat)
    requires |fills| == |s.layers| && InBounds(q, s.width, s.height)
    requires i < |fills| && q in fills[i]
    requires forall k :: i < k < |fills| ==> q !in fills[k]
    ensures q in Painted(s, wheel, fills).pixels && Painted(s, wheel, fills).pixels[q] == s.layers[i].color
  {
    var strokes := Strokes(s, wheel, fills);
    forall k | i + 1 < k < |strokes|
      ensures q !in strokes[k].points
    {
      StrokeAt(s, wheel, fills, k - 1);
    }
    StrokeAt(s, wheel, fills, i);
    LastCoverWins(Blank(s.width, s.height, s.sky), strokes, q, i + 1);
  }

  /** A pixel of the wheel that no layer writes shows the wheel's colour. */
  lemma WheelShows(s: Scene, wheel: seq<Point>, fills: seq<seq<Point>>, q: Point)
    requires |fills| == |s.layers| && InBounds(q, s.width, s.height)
    requires q in wheel
    requires forall k :: 0 <= k < |fills| ==> q !in fills[k]
    ensures q in Painted(s, wheel, fills).pixels && Painted(s, wheel, fills).pixels[q] == s.wheel
  {
    var strokes := Strokes(s, wheel, fills);
    forall k | 0 < k < |strokes|
      ensures q !in strokes[k].points
    {
      StrokeAt(s, wheel, fills, k - 1);
    }
    LastCoverWins(Blank(s.width, s.height, s.sky), strokes, q, 0);
  }

  /** A pixel neither the wheel nor any layer writes keeps the sky colour. */
  lemma SkyShows(s: Scene, wheel: seq<Point>, fills: seq<seq<Point>>, q: Point)
    requires |fills| == |s.layers| && InBounds(q, s.width, s.height)
    requires q !in wheel
    requires forall k :: 0 <= k < |fills| ==> q !in fills[k]
    ensures q in Painted(s, wheel, fills).pixels && Painted(s, wheel, fills).pixels[q] == s.sky
  {
    var strokes := Strokes(s, wheel, fills);
    forall k | 0 <= k < |strokes|
      ensures q !in strokes[k].points
    {
      if k > 0 {
        StrokeAt(s, wheel, fills, k - 1);
      }
    }
    UncoveredKeeps(Blank(s.width, s.height, s.sky), strokes, q);
  }

  /** Every pixel the wheel writes lies within n - 1 of its centre in both directions. */
  lemma {:induction false} WheelInSquare(c: Point, n: int)
    requires n - 1 <= c.x && n - 1 <= c.y
    ensures forall p :: p in WheelPoints(c, n) ==> Abs(p.x - c.x) <= Max(n - 1, 0) && Abs(p.y - c.y) <= Max(n - 1, 0)
    decreases n
  {
    if n > 1 {
      WheelInSquare(c, n - 1);
      CircleInSquare(c, n - 1);
    }
  }

  /** The canvas size `main` uses. */
  const ImgX: nat := 2460
  const ImgY: nat := 1300

  /** `main`'s own scene: a 2460 x 1300 canvas, its sky and wheel colours, the wheel
      centred at (ImgX / 10, ImgY / 10) with radius bound ImgY / 17, ten iterations,
      and its four layers back to front with their colours and columns. Four
      quantities are computed in f32 from the canvas height and stay parameters: the
      first layer's left and right rows `top` and `topRight`, and the gaps `gap2` and
      `gap3` that move the second and third layers down. The fourth layer's right row
      is the same expression as the third layer's left row. */
  function ProgramScene(top: nat, topRight: nat, gap2: nat, gap3: nat): (s: Scene)
    ensures |s.layers| == 4
    ensures forall i :: 0 <= i < |s.layers| ==> s.layers[i].a.x <= s.layers[i].b.x < s.width
  {
    var layers := [
      Layer(Point(0, top), Point(ImgX - 1, topRight), Rgba(157, 101, 202, 255)),
      Layer(Point(0, top + gap2), Point(ImgX - 1, topRight + gap2), Rgba(129, 81, 137, 255)),
      Layer(Point(0, top + gap2 + gap3), Point(2 * ImgX / 3, ImgY - 1), Rgba(68, 31, 98, 255)),
      Layer(Point(ImgX / 3, ImgY - 1), Point(ImgX - 1, top + gap2 + gap3), Rgba(49, 12, 81, 255))];
    Scene(ImgX, ImgY, Rgba(240, 203, 163, 255), Rgba(255, 255, 255, 255),
          Point(ImgX / 10, ImgY / 10), ImgY / 17, layers, 10)
  }

  /** A layer drawn left to right keeps every ridge point in the columns between its
      end points. */
  lemma RidgeColumns(s: Scene, draw: nat -> nat -> int, i: nat)
    requires i < |s.layers| && s.layers[i].a.x <= s.layers[i].b.x
    ensures forall p :: p in Ridges(s, draw)[i] ==> s.layers[i].a.x <= p.x <= s.layers[i].b.x
  {
    var l := s.layers[i];
    DisplaceShape(l.a, l.b, s.iterations, draw(i));
  }

  /** Every ridge point of every layer of `main` lies in a canvas column, whatever the
      random draws. */
  lemma ProgramRidgesOnCanvas(top: nat, topRight: nat, gap2: nat, gap3: nat, draw: nat -> nat -> int, i: nat)
    requires i < 4
    ensures var s := ProgramScene(top, topRight, gap2, gap3);
      forall p :: p in Ridges(s, draw)[i] ==> p.x < s.width
  {
    var s := ProgramScene(top, topRight, gap2, gap3);
    RidgeColumns(s, draw, i);
  }

  /** A wheel whose square around the centre fits the canvas loses no write to the
      bounds check. */
  lemma WheelOnCanvas(c: Point, n: int, width: nat, height: nat)
    requires n - 1 <= c.x && n - 1 <= c.y
    requires c.x + Max(n - 1, 0) < width && c.y + Max(n - 1, 0) < height
    ensures forall p :: p in WheelPoints(c, n) ==> InBounds(p, width, height)
  {
    WheelInSquare(c, n);
  }

  /** The program's constants meet the model's requirements (no unsigned subtraction
      in the wheel's rings wraps) and every wheel write lands on the canvas, so the
      bounds check never discards one. */
  lemma ProgramWheelOnCanvas(top: nat, topRight: nat, gap2: nat, gap3: nat)
    ensures var s := ProgramScene(top, topRight, gap2, gap3);
      && Renderable(s)
      && forall p :: p in WheelPoints(s.center, s.radius) ==> InBounds(p, s.width, s.height)
  {
    var s := ProgramScene(top, topRight, gap2, gap3);
    WheelOnCanvas(s.center, s.radius, s.width, s.height);
  }
}

=== FILE: geometry.dfy ===
/** Pixel coordinates, the canvas bounds check and small sequence helpers shared by the
    rasterizers. */
module Geometry {

  /** A pixel coordinate. Both coordinates are unsigned in the program, so a point can
      never hold a negative value: every subtraction that builds a point must be shown
      not to wrap. */
  datatype Point = Point(x: nat, y: nat)

  function Abs(n: int): nat
  {
    if n < 0 then -n else n
  }

  function Max(a: int, b: int): int
  {
    if a < b then b else a
  }

  function Min(a: int, b: int): int
  {
    if a < b then a else b
  }

  /** The bounds check that gates every pixel write: the point addresses a pixel of a
      width x height canvas. */
  predicate InBounds(p: Point, width: nat, height: nat)
  {
    p.x < width && p.y < height
  }

  /** Every pixel of a width x height canvas. */
  function Pixels(width: nat, height: nat): (s: set<Point>)
    ensures forall p :: p in s <==> InBounds(p, width, height)
  {
    set x: nat, y: nat | x < width && y < height :: Point(x, y)
  }

  /** The sequence read back to front. */
  function Reverse<T>(s: seq<T>): seq<T>
  {
    seq(|s|, i requires 0 <= i < |s| => s[|s| - 1 - i])
  }

  /** f applied to every element of xs, the results joined in order. */
  function FlatMap<T, U>(f: T -> seq<U>, xs: seq<T>): seq<U>
  {
    if xs == [] then [] else FlatMap(f, xs[..|xs| - 1]) + f(xs[|xs| - 1])
  }

  lemma {:induction false} FlatMapAppend<T, U>(f: T -> seq<U>, xs: seq<T>, ys: seq<T>)
    ensures FlatMap(f, xs + ys) == FlatMap(f, xs) + FlatMap(f, ys)
    decreases |ys|
  {
    if ys == [] {
      assert xs + ys == xs;
    } else {
      var init := ys[..|ys| - 1];
      assert (xs + ys)[..|xs + ys| - 1] == xs + init;
      FlatMapAppend(f, xs, init);
    }
  }

  /** Extending the input by one element appends that element's image. */
  lemma FlatMapPrefix<T, U>(f: T -> seq<U>, xs: seq<T>, k: nat)
    requires k < |xs|
    ensures FlatMap(f, xs[..k + 1]) == FlatMap(f, xs[..k]) + f(xs[k])
  {
    assert xs[..k + 1][..k] == xs[..k];
  }

  /** u is in the joined result exactly when it is in f of some element. */
  lemma {:induction false} FlatMapHas<T, U>(f: T -> seq<U>, xs: seq<T>, u: U)
    ensures u in FlatMap(f, xs) <==> exists x :: x in xs && u in f(x)
  {
    if xs != [] {
      var init := xs[..|xs| - 1];
      var last := xs[|xs| - 1];
      FlatMapHas(f, init, u);
      assert xs == init + [last];
      if exists x :: x in xs && u in f(x) {
        var x :| x in xs && u in f(x);
        if x != last {
          assert x in init;
        }
      }
    }
  }

  /** The segments seg(ps[0], ps[1]), seg(ps[1], ps[2]), ... joined in order. */
  function Chain(seg: (Point, Point) -> seq<Point>, ps: seq<Point>): seq<Point>
  {
    if |ps| < 2 then [] else Chain(seg, ps[..|ps| - 1]) + seg(ps[|ps| - 2], ps[|ps| - 1])
  }

  /** Every segment seg(a, b) is non-empty and runs from a to b. */
  ghost predicate Joins(seg: (Point, Point) -> seq<Point>)
  {
    forall a, b :: |seg(a, b)| >= 1 && seg(a, b)[0] == a && seg(a, b)[|seg(a, b)| - 1] == b
  }

  /** A chain of joining segments starts at the first point and ends at the last. */
  lemma {:induction false} ChainEnds(seg: (Point, Point) -> seq<Point>, ps: seq<Point>)
    requires Joins(seg) && |ps| >= 2
    ensures var o := Chain(seg, ps); |o| >= 1 && o[0] == ps[0] && o[|o| - 1] == ps[|ps| - 1]
  {
    var init := ps[..|ps| - 1];
    var last := seg(ps[|ps| - 2], ps[|ps| - 1]);
    if |ps| > 2 {
      ChainEnds(seg, init);
    } else {
      assert Chain(seg, init) == [];
    }
  }

  /** A chain of joining segments passes through every point. */
  lemma {:induction false} ChainThrough(seg: (Point, Point) -> seq<Point>, ps: seq<Point>)
    requires Joins(seg) && |ps| >= 2
    ensures forall i :: 0 <= i < |ps| ==> ps[i] in Chain(seg, ps)
  {
    var init := ps[..|ps| - 1];
    var last := seg(ps[|ps| - 2], ps[|ps| - 1]);
    if |ps| > 2 {
      ChainThrough(seg, init);
    }
    forall i | 0 <= i < |ps|
      ensures ps[i] in Chain(seg, ps)
    {
      if i == |ps| - 1 {
        assert last[|last| - 1] in last;
      } else if i == |ps| - 2 {
        assert last[0] in last;
      } else {
        assert ps[i] == init[i];
      }
    }
  }

  lemma ReverseReverse<T>(s: seq<T>)
    ensures Reverse(Reverse(s)) == s
  {
  }
}

=== FILE: raster.dfy ===
/** The canvas the renderer paints: one opaque colour per in-bounds pixel, every write
    gated by the bounds check and overwriting what was there. The image buffer itself
    and its encoding are outside the model. */
module Raster {
  import opened Geometry

  newtype byte = n: int | 0 <= n < 256

  /** An RGBA pixel value. */
  datatype Color = Rgba(r: byte, g: byte, b: byte, a: byte)

  /** A width x height canvas; `pixels` holds a colour for exactly the in-bounds points. */
  datatype Canvas = Canvas(width: nat, height: nat, pixels: map<Point, Color>)

  predicate Valid(c: Canvas)
  {
    c.pixels.Keys == Pixels(c.width, c.height)
  }

  /** The canvas with every pixel set to `color` (the background fill). */
  function Blank(width: nat, height: nat, color: Color): (c: Canvas)
    ensures Valid(c) && c.width == width && c.height == height
    ensures forall p :: p in c.pixels ==> c.pixels[p] == color
  {
    Canvas(width, height, map p | p in Pixels(width, height) :: color)
  }

  /** One gated write: an in-bounds point gets `color`, an out-of-bounds point changes
      nothing. */
  function Paint(c: Canvas, p: Point, color: Color): (d: Canvas)
    ensures d.width == c.width && d.height == c.height
  {
    if InBounds(p, c.width, c.height) then c.(pixels := c.pixels[p := color]) else c
  }

  /** The gated writes of `ps` in order, all with the same colour. */
  function PaintAll(c: Canvas, ps: seq<Point>, color: Color): (d: Canvas)
    ensures d.width == c.width && d.height == c.height
  {
    if ps == [] then c else Paint(PaintAll(c, ps[..|ps| - 1], color), ps[|ps| - 1], color)
  }

  /** Gated writes keep a canvas valid: they never add a pixel outside it. */
  lemma {:induction false} PaintAllValid(c: Canvas, ps: seq<Point>, color: Color)
    requires Valid(c)
    ensures Valid(PaintAll(c, ps, color))
  {
    if ps != [] {
      PaintAllValid(c, ps[..|ps| - 1], color);
    }
  }

  /** After painting ps, a pixel has `color` exactly when it is one of ps, and keeps its
      old colour otherwise. */
  lemma {:induction false} PaintAllAt(c: Canvas, ps: seq<Point>, color: Color, q: Point)
    requires Valid(c) && q in c.pixels
    ensures q in PaintAll(c, ps, color).pixels
    ensures PaintAll(c, ps, color).pixels[q] == if q in ps then color else c.pixels[q]
  {
    if ps != [] {
      var init := ps[..|ps| - 1];
      PaintAllAt(c, init, color, q);
      assert ps == init + [ps[|ps| - 1]];
    }
  }

  /** Painting s and then t is painting s + t. */
  lemma {:induction false} PaintAllAppend(c: Canvas, s: seq<Point>, t: seq<Point>, color: Color)
    ensures PaintAll(c, s + t, color) == PaintAll(PaintAll(c, s, color), t, color)
    decreases |t|
  {
    if t == [] {
      assert s + t == s;
    } else {
      var init := t[..|t| - 1];
      assert (s + t)[..|s + t| - 1] == s + init;
      PaintAllAppend(c, s, init, color);
    }
  }

  /** A batch of same-coloured writes: everything one layer (or the wheel) paints. */
  datatype Stroke = Stroke(points: seq<Point>, color: Color)

  /** The strokes applied in order, each overwriting the ones before it. */
  function Composite(c: Canvas, strokes: seq<Stroke>): (d: Canvas)
    ensures d.width == c.width && d.height == c.height
  {
    if strokes == [] then c
    else
      var last := strokes[|strokes| - 1];
      PaintAll(Composite(c, strokes[..|strokes| - 1]), last.points, last.color)
  }

  /** Compositing keeps a canvas valid. */
  lemma {:induction false} CompositeValid(c: Canvas, strokes: seq<Stroke>)
    requires Valid(c)
    ensures Valid(Composite(c, strokes))
  {
    if strokes != [] {
      var last := strokes[|strokes| - 1];
      CompositeValid(c, strokes[..|strokes| - 1]);
      PaintAllValid(Composite(c, strokes[..|strokes| - 1]), last.points, last.color);
    }
  }

  /** The colour a pixel shows when the strokes are stacked: that of the last stroke
      covering it, or `under` when none does. */
  function TopColor(strokes: seq<Stroke>, q: Point, under: Color): Color
  {
    if strokes == [] then under
    else if q in strokes[|strokes| - 1].points then strokes[|strokes| - 1].color
    else TopColor(strokes[..|strokes| - 1], q, under)
  }

  /** Compositing is stacking: every pixel of the result shows the colour of the last
      stroke that covers it, or its colour before compositing. */
  lemma {:induction false} Occlusion(c: Canvas, strokes: seq<Stroke>, q: Point)
    requires Valid(c) && q in c.pixels
    ensures q in Composite(c, strokes).pixels
    ensures Composite(c, strokes).pixels[q] == TopColor(strokes, q, c.pixels[q])
  {
    if strokes != [] {
      var init := strokes[..|strokes| - 1];
      var last := strokes[|strokes| - 1];
      Occlusion(c, init, q);
      CompositeValid(c, init);
      PaintAllAt(Composite(c, init), last.points, last.color, q);
    }
  }

  /** The later stroke wins: a pixel covered by stroke i and by no later stroke ends up
      with stroke i's colour, whatever the earlier strokes painted. */
  lemma {:induction false} LastCoverWins(c: Canvas, strokes: seq<Stroke>, q: Point, i: nat)
    requires Valid(c) && q in c.pixels
    requires i < |strokes| && q in strokes[i].points
    requires forall k :: i < k < |strokes| ==> q !in strokes[k].points
    ensures q in Composite(c, strokes).pixels && Composite(c, strokes).pixels[q] == strokes[i].color
    decreases |strokes|
  {
    Occlusion(c, strokes, q);
    TopColorLast(strokes, q, c.pixels[q], i);
  }

  lemma {:induction false} TopColorLast(strokes: seq<Stroke>, q: Point, under: Color, i: nat)
    requires i < |strokes| && q in strokes[i].points
    requires forall k :: i < k < |strokes| ==> q !in strokes[k].points
    ensures TopColor(strokes, q, under) == strokes[i].color
    decreases |strokes|
  {
    var n := |strokes| - 1;
    if i < n {
      var init := strokes[..n];
      assert q !in strokes[n].points;
      assert forall k :: i < k < |init| ==> init[k] == strokes[k];
      TopColorLast(init, q, under, i);
    }
  }

  /** A pixel no stroke covers keeps its colour. */
  lemma {:induction false} UncoveredKeeps(c: Canvas, strokes: seq<Stroke>, q: Point)
    requires Valid(c) && q in c.pixels
    requires forall k :: 0 <= k < |strokes| ==> q !in strokes[k].points
    ensures q in Composite(c, strokes).pixels && Composite(c, strokes).pixels[q] == c.pixels[q]
    decreases |strokes|
  {
    Occlusion(c, strokes, q);
    TopColorNone(strokes, q, c.pixels[q]);
  }

  lemma {:induction false} TopColorNone(strokes: seq<Stroke>, q: Point, under: Color)
    requires forall k :: 0 <= k < |strokes| ==> q !in strokes[k].points
    ensures TopColor(strokes, q, under) == under
    decreases |strokes|
  {
    if strokes != [] {
      var init := strokes[..|strokes| - 1];
      assert forall k :: 0 <= k < |init| ==> init[k] == strokes[k];
      TopColorNone(init, q, under);
    }
  }

  /** A gated write loop (`for point in points { if in_bounds(point) { write } }`). */
  method PaintPoints(c: Canvas, points: seq<Point>, color: Color) returns (d: Canvas)
    ensures d == PaintAll(c, points, color)
  {
    d := c;
    var i := 0;
    while i < |points|
      invariant 0 <= i <= |points|
      invariant d == PaintAll(c, points[..i], color)
    {
      assert points[..i + 1][..i] == points[..i];
      if InBounds(points[i], d.width, d.height) {
        d := d.(pixels := d.pixels[points[i] := color]);
      }
      i := i + 1;
    }
    assert points[..|points|] == points;
  }
}

=== FILE: ridge.dfy ===
/** Iterative midpoint displacement, `midpoint_displacement`. The random source is an
    oracle `draw` giving an integer offset for the k-th sample the generator takes.
    Whatever float sample is drawn, the row the program stores is max(0, y + m) for
    some integer m: the truncated sum minus y when the sum is positive, and -y when
    it is not. Since `draw` is arbitrary, every run of the program is covered. The
    magnitude of the samples (the float displacement and its decay by 2^-roughness)
    is not modelled. */
module Ridge {
  import opened Geometry

  /** 2^n. */
  function Pow2(n: nat): nat
  {
    if n == 0 then 1 else 2 * Pow2(n - 1)
  }

  /** The midpoint of p and q (coordinates halved with truncation) with its row moved
      by `offset`, clamped to row 0 when the sum is not positive. */
  function Displaced(p: Point, q: Point, offset: int): (m: Point)
    ensures Min(p.x, q.x) <= m.x <= Max(p.x, q.x)
    ensures m.y >= (p.y + q.y) / 2 + offset
    ensures (p.y + q.y) / 2 + offset > 0 ==> m.y == (p.y + q.y) / 2 + offset
    ensures (p.y + q.y) / 2 + offset <= 0 ==> m.y == 0
  {
    var sum := (p.y + q.y) / 2 + offset;
    Point((p.x + q.x) / 2, if sum > 0 then sum else 0)
  }

  /** One pass of the generator over ps: ps[0], the displaced midpoint of ps[0] and
      ps[1], ps[1], ..., the displaced midpoint of the last pair, then the end point b
      appended again. The midpoint after ps[i] uses the draw at position drawn + i. */
  function Subdivide(ps: seq<Point>, b: Point, draw: nat -> int, drawn: nat): seq<Point>
    requires |ps| >= 1
  {
    seq(2 * |ps| - 1, k requires 0 <= k < 2 * |ps| - 1 =>
      if k == 2 * |ps| - 2 then b
      else if k % 2 == 0 then ps[k / 2]
      else Displaced(ps[k / 2], ps[k / 2 + 1], draw(drawn + k / 2)))
  }

  /** `passes` passes starting from ps, the first drawing from position `drawn`; each
      pass draws one offset per adjacent pair. */
  function Passes(ps: seq<Point>, b: Point, passes: nat, draw: nat -> int, drawn: nat): seq<Point>
    requires |ps| >= 1
    decreases passes
  {
    if passes == 0 then ps
    else Passes(Subdivide(ps, b, draw, drawn), b, passes - 1, draw, drawn + |ps| - 1)
  }

  /** The ridge for endpoints a and b: `iterations - 1` passes over [a, b] (none when
      iterations is 0 or 1). */
  function Displace(a: Point, b: Point, iterations: nat, draw: nat -> int): seq<Point>
  {
    Passes([a, b], b, if iterations == 0 then 0 else iterations - 1, draw, 0)
  }

  /** A pass keeps every point of ps at the even positions and puts between ps[i] and
      ps[i + 1] their midpoint, x halved with truncation and y moved by the draw at
      position drawn + i (clamped at row 0); it ends on b. */
  lemma SubdivideShape(ps: seq<Point>, b: Point, draw: nat -> int, drawn: nat, i: nat)
    requires |ps| >= 1 && ps[|ps| - 1] == b && i < |ps|
    ensures var r := Subdivide(ps, b, draw, drawn);
      && |r| == 2 * |ps| - 1
      && r[2 * i] == ps[i]
      && (i + 1 < |ps| ==>
           var m := r[2 * i + 1];
           var sum := (ps[i].y + ps[i + 1].y) / 2 + draw(drawn + i);
           m.x == (ps[i].x + ps[i + 1].x) / 2 && m.y == (if sum > 0 then sum else 0))
  {
  }

  /** x-coordinates never decrease along the sequence. */
  predicate XOrdered(ps: seq<Point>)
  {
    forall i, j :: 0 <= i <= j < |ps| ==> ps[i].x <= ps[j].x
  }

  /** Every point of a pass over an x-ordered sequence lies, in x, between the
      original points at positions k / 2 and (k + 1) / 2. */
  lemma SubdivideBetween(ps: seq<Point>, b: Point, draw: nat -> int, drawn: nat, k: nat)
    requires |ps| >= 1 && XOrdered(ps) && ps[|ps| - 1] == b && k < 2 * |ps| - 1
    ensures ps[k / 2].x <= Subdivide(ps, b, draw, drawn)[k].x <= ps[(k + 1) / 2].x
  {
  }

  /** A pass over an x-ordered sequence ending on b is x-ordered again, since every
      inserted x lies between its neighbours' x. */
  lemma SubdivideOrdered(ps: seq<Point>, b: Point, draw: nat -> int, drawn: nat)
    requires |ps| >= 1 && XOrdered(ps) && ps[|ps| - 1] == b
    ensures XOrdered(Subdivide(ps, b, draw, drawn))
  {
    var r := Subdivide(ps, b, draw, drawn);
    forall i, j | 0 <= i <= j < |r|
      ensures r[i].x <= r[j].x
    {
      SubdivideBetween(ps, b, draw, drawn, i);
      SubdivideBetween(ps, b, draw, drawn, j);
      assert (i + 1) / 2 <= j / 2 || i == j;
    }
  }

  lemma {:induction false} PassesLength(ps: seq<Point>, b: Point, passes: nat, draw: nat -> int, drawn: nat)
    requires |ps| >= 1
    ensures |Passes(ps, b, passes, draw, drawn)| == Pow2(passes) * (|ps| - 1) + 1
    decreases passes
  {
    if passes > 0 {
      var next := Subdivide(ps, b, draw, drawn);
      PassesLength(next, b, passes - 1, draw, drawn + |ps| - 1);
      var m := |ps| - 1;
      assert |next| - 1 == 2 * m;
      assert Pow2(passes - 1) * (2 * m) == (2 * Pow2(passes - 1)) * m;
    }
  }

  lemma {:induction false} PassesEnds(ps: seq<Point>, b: Point, passes: nat, draw: nat -> int, drawn: nat)
    requires |ps| >= 2 && ps[|ps| - 1] == b
    ensures var r := Passes(ps, b, passes, draw, drawn); |r| >= 2 && r[0] == ps[0] && r[|r| - 1] == b
    decreases passes
  {
    if passes > 0 {
      var next := Subdivide(ps, b, draw, drawn);
      assert next[0] == ps[0];
      PassesEnds(next, b, passes - 1, draw, drawn + |ps| - 1);
    }
  }

  lemma {:induction false} PassesOrdered(ps: seq<Point>, b: Point, passes: nat, draw: nat -> int, drawn: nat)
    requires |ps| >= 1 && ps[|ps| - 1] == b && XOrdered(ps)
    ensures XOrdered(Passes(ps, b, passes, draw, drawn))
    decreases passes
  {
    if passes > 0 {
      var next := Subdivide(ps, b, draw, drawn);
      SubdivideOrdered(ps, b, draw, drawn);
      PassesOrdered(next, b, passes - 1, draw, drawn + |ps| - 1);
    }
  }

  /** The ridge starts at a, ends at b and has 2^(iterations - 1) + 1 points; it is just
      [a, b] for iterations <= 1. When a is left of b its x-coordinates never decrease,
      so every point lies in the columns from a to b. Rows are never negative: a
      midpoint pushed above the top is clamped to row 0. */
  lemma DisplaceShape(a: Point, b: Point, iterations: nat, draw: nat -> int)
    ensures var r := Displace(a, b, iterations, draw);
      && |r| == (if iterations <= 1 then 2 else Pow2(iterations - 1) + 1)
      && r[0] == a && r[|r| - 1] == b
      && (iterations <= 1 ==> r == [a, b])
      && (a.x <= b.x ==> XOrdered(r) && forall i :: 0 <= i < |r| ==> a.x <= r[i].x <= b.x)
  {
    var passes := if iterations == 0 then 0 else iterations - 1;
    var r := Displace(a, b, iterations, draw);
    PassesLength([a, b], b, passes, draw, 0);
    PassesEnds([a, b], b, passes, draw, 0);
    if a.x <= b.x {
      PassesOrdered([a, b], b, passes, draw, 0);
      assert forall i :: 0 <= i < |r| ==> r[0].x <= r[i].x <= r[|r| - 1].x;
    }
  }

  /** One pass of midpoint_displacement's outer loop: push each point and the
      displaced midpoint after it, drawing one sample per adjacent pair, then push b.
      Returns the new points and the new position in the random stream. */
  method Pass(points: seq<Point>, b: Point, draw: nat -> int, drawn: nat)
    returns (temp: seq<Point>, drawnAfter: nat)
    requires |points| >= 1
    ensures temp == Subdivide(points, b, draw, drawn)
    ensures drawnAfter == drawn + |points| - 1
  {
    temp := [];
    drawnAfter := drawn;
    var i := 0;
    while i < |points| - 1
      invariant 0 <= i <= |points| - 1
      invariant drawnAfter == drawn + i
      invariant |temp| == 2 * i
      invariant forall k :: 0 <= k < 2 * i ==> temp[k] == Subdivide(points, b, draw, drawn)[k]
    {
      var p := points[i];
      var q := points[i + 1];
      temp := temp + [p];
      var mid := Displaced(p, q, draw(drawnAfter));
      drawnAfter := drawnAfter + 1;
      temp := temp + [mid];
      i := i + 1;
    }
    temp := temp + [b];
  }

  /** midpoint_displacement: `iterations - 1` passes starting from [a, b], proved to
      produce exactly `Displace(a, b, iterations, draw)`. `drawn` counts the samples
      taken so far, i.e. the position in the random stream. */
  method MidpointDisplacement(a: Point, b: Point, iterations: nat, draw: nat -> int)
    returns (points: seq<Point>)
    ensures points == Displace(a, b, iterations, draw)
    ensures |points| == (if iterations <= 1 then 2 else Pow2(iterations - 1) + 1)
    ensures points[0] == a && points[|points| - 1] == b
  {
    points := [a, b];
    var drawn: nat := 0;
    var pass := 1;
    while pass < iterations
      invariant |points| >= 1
      invariant Passes(points, b, if pass >= iterations then 0 else iterations - pass, draw, drawn)
             == Displace(a, b, iterations, draw)
    {
      points, drawn := Pass(points, b, draw, drawn);
      pass := pass + 1;
    }
    DisplaceShape(a, b, iterations, draw);
  }
}
